=== FILE: README.md ===
# duct: munin-node client and OpenTSDB output, in Dafny

This project models two parts of the duct metrics agent and proves properties of them.

- **The munin-node client** (`duct/sources/munin.py`). `MuninProtocol` is a line receiver with one request outstanding at a time. A request is answered either by one line or by a block of lines closed by a `.` line. Lines starting with `#` are comments and are dropped. `MuninNode.get` drives one poll:
  - `cap multigraph`, then `list`;
  - then `config <plugin>` and `fetch <plugin>` for every listed plugin.

  The `config` block becomes a per-plugin dictionary of attributes and a category. The `fetch` block becomes one event per numeric sample, tagged with a prefix `category.plugin.metric` and an aggregator chosen by the metric's declared type.
- **The OpenTSDB output** (`duct/outputs/opentsdb.py`). Events wait in a queue. A timer tick takes a batch from the head: at most `queueDepth` events when `queueDepth` is positive, and the whole queue when there is no limit or `queueDepth` is zero. It transforms each event into an OpenTSDB record and sends the batch. If anything raises, the batch is appended to the tail of the queue.

Modules:

| file | module | contents |
|---|---|---|
| `wrappers.dfy` | `Wrappers` | `Option` and `Result` |
| `strings.dfy` | `Strings` | Python string operations: `split()` on whitespace, `split(c)`, `split(c, 1)`, `join`, `replace` |
| `munin_receiver.dfy` | `MuninReceiver` | the `lineReceived`/`sendCommand` state machine |
| `munin_parse.dfy` | `MuninParse` | parsing of `config` and `fetch` replies into a plugin configuration and events |
| `munin_node.dfy` | `MuninNode` | the poll over a script of server lines, and a framed reference it is proved equal to |
| `opentsdb.dfy` | `OpenTsdb` | queue depth, drain and completion of a tick, `transformEvent`, `sendEvents` |

Modelling choices:

- **The munin-node server's output is a parameter.** It is a sequence of lines, already split on `\n`. A command's reply is taken from the lines that follow it. When the lines run out before a reply completes, the source's deferred never fires; the model reports this as `NoReply`.
- **Float parsing is a parameter.** `float(val)` becomes `number: string -> Option<real>`. `None` stands for the `ValueError` that makes the loop skip the sample.
- **Python failures are explicit.** A tuple unpacking that raises `ValueError` is modelled as `Malformed(line)`. This covers a `config` or `fetch` line without a space, a `config` name with more than one dot, and a `fetch` name other than `multigraph` without exactly one dot. A `config` name with no dot is not split and is only checked against `graph_category`.
- **The attribute dictionary has structured keys.** `plugin_config` uses flat string keys `plug.metric.key` and `plug.category`. The model keys attributes by `(metric, key)` and keeps the category apart. `MuninParse.FlatKeysDistinct` proves the flat keys of one plugin never collide, so the two hold the same information.
- **The tick is split in two.** `tick` is an `inlineCallbacks` coroutine suspended while the send is under way. It is modelled as `Drain` (take a batch and start the send) and `Complete` (learn the outcome), with any number of enqueues in between.
- **Python integer conversion is explicit.** `int()` of a float truncates toward zero (`OpenTsdb.Truncate`). Slices use Python's bound normalisation, including negative bounds (`OpenTsdb.SliceBound`).

## Model

| member | source | states |
|---|---|---|
| MuninReceiver.LineReceived | duct/sources/munin.py:32-45 | A waiting request either keeps waiting or is answered: a single-line request with the line just received, a block request with the lines buffered so far. The block mode flag never changes. |
| MuninReceiver.SendCommand | duct/sources/munin.py:52-58 | Issuing a command leaves a request waiting for its reply. |
| MuninReceiver.CommentIgnored | duct/sources/munin.py:33-34 | A line starting with `#` leaves the receiver exactly as it was. |
| MuninReceiver.FeedSkipsComments | duct/sources/munin.py:32-45 | Feeding a stream has the same effect as feeding only its non-comment lines. |
| MuninReceiver.FeedDiscardsWhenNotWaiting | duct/sources/munin.py:36 | With no request outstanding, or once it is answered, any run of lines changes nothing. |
| MuninReceiver.FirstReplyLine | duct/sources/munin.py:32-45 | The index of the first line that is not a comment: every earlier line is a comment, and it is the first line that survives comment removal. |
| MuninReceiver.Await | duct/sources/munin.py:36-45 | An answer always consumes at least one line. The reply is a block exactly for a block request. The receiver records it as the answer, and a block answer empties the buffer. |
| MuninReceiver.AwaitLine | duct/sources/munin.py:44-45 | A single-line request is answered exactly when a non-comment line arrives, and it is answered by the first one. Reading resumes just after that line. |
| MuninReceiver.AwaitBlock | duct/sources/munin.py:37-43 | A block request is answered exactly when a `.` line arrives, at the first one. The reply is the earlier buffer followed by the non-comment lines before the `.`, in order. The `.` is not part of the reply and the buffer is emptied. |
| MuninReceiver.FeedBlockUnterminated | duct/sources/munin.py:37-43 | Until the `.` arrives, a block request keeps waiting and its buffer holds every non-comment line so far, in order. |
| MuninReceiver.AwaitIsFeed | duct/sources/munin.py:32-45 | The state at the moment of the answer is the state the whole stream leaves: later lines are discarded. |
| Strings.Words | duct/sources/munin.py:93 | `str.split()`: no pieces for the empty string, and every piece is non-empty and free of whitespace. The pieces are separated at whitespace, as `WordsAfterAnySpace` and `WordsCons` state. |
| Strings.WordsOfJoin | duct/sources/munin.py:93 | Splitting a space-joined list of plugin names gives back the list. |
| Strings.WordsAfterAnySpace | duct/sources/munin.py:93 | `str.split()` ignores a leading whitespace character of any kind (space, tab, newline…). |
| Strings.WordsCons | duct/sources/munin.py:93 | A run of non-whitespace characters that ends at whitespace or at the end of the input is the next piece of `str.split()`. With `WordsAfterAnySpace` and the empty case, this fixes `Words` on every string. |
| Strings.WordsKeepEveryCharacter | duct/sources/munin.py:93 | The pieces of `str.split()`, concatenated, are exactly the non-whitespace characters of the input, in order. |
| Strings.SplitFirst | duct/sources/munin.py:101 | `split(' ', 1)`: one piece when there is no space, else the text before the first space and everything after it. |
| Strings.SplitFirstOf | duct/sources/munin.py:117 | `a + " " + b` splits back into `a` and `b` when `a` has no space. |
| Strings.Split | duct/sources/munin.py:103 | `split('.')`: one more piece than there are dots, none containing a dot. |
| Strings.JoinSplit | duct/sources/munin.py:103 | Joining the pieces of `split(c)` with `c` gives back the string. |
| Strings.SplitJoin | duct/sources/munin.py:119 | Splitting a `c`-join of `c`-free pieces gives back the pieces. |
| Strings.ReplaceChar | duct/outputs/opentsdb.py:73 | `replace(a, b)` on single characters: same length, every `a` becomes `b`, and every other character is unchanged. |
| Strings.ReplaceIdempotent | duct/outputs/opentsdb.py:73 | After replacing spaces by underscores no space is left, and replacing again changes nothing. |
| MuninParse.SplitPair | duct/sources/munin.py:103 | `metric, key = name.split('.')` succeeds exactly when the name holds one dot. The two parts are dot-free and rejoin to the name. |
| MuninParse.ParseConfigLine | duct/sources/munin.py:100-110 | A `config` line fails exactly when it has no space or its name holds more than one dot, and the error names the line. A recorded attribute has a recognised key, and the line is its rendering. A category entry is a `graph_category` line. |
| MuninParse.ConfigAttributeRoundTrip | duct/sources/munin.py:101-106 | A rendered `metric.key value` line with a recognised key parses back to its three parts. |
| MuninParse.ConfigCategoryRoundTrip | duct/sources/munin.py:108-110 | A rendered `graph_category value` line parses back to its value. |
| MuninParse.AttributeLastWriteWins | duct/sources/munin.py:99-106 | Over a block's parsed entries, an attribute is recorded exactly when some entry sets it, and it holds the value of the last entry that does. |
| MuninParse.CategoryLastWriteWins | duct/sources/munin.py:108-112 | Over a block's parsed entries, a category is declared exactly when some entry declares one, and it is the last such value. Without one, the category is `system`. |
| MuninParse.ParseAllPointwise | duct/sources/munin.py:100-101 | A reply parses exactly when every line parses, and the result holds each line's parse in order. |
| MuninParse.ParseAllOf | duct/sources/munin.py:100-101 | Lines that parse one by one to given items parse together to those items. |
| MuninParse.ParseAllAppend | duct/sources/munin.py:116-117 | For a reply split in two, the first failing line decides; otherwise the items concatenate. |
| MuninParse.ParseAllOne | duct/sources/munin.py:116-117 | A one-line reply yields that line's parse error or its single item. |
| MuninParse.ParseConfig | duct/sources/munin.py:99-112 | A `config` block fails exactly when some line fails. Otherwise every recorded attribute has a recognised key and a dot-free metric. |
| MuninParse.ParseConfigOfLines | duct/sources/munin.py:99-112 | What a parsed `config` block holds, stated over its lines. An attribute is present exactly when some line sets it, and its value is the one written by the last such line (`metric.key value`). The category is present exactly when some line is a `graph_category` line, and it is the value of the last one. Without one, the category is `system`. |
| MuninParse.FlatKeysDistinct | duct/sources/munin.py:106-110 | Within one plugin, distinct (metric, key) pairs give distinct flat keys, and none equals the category key. |
| MuninParse.ParseFetchLine | duct/sources/munin.py:116-119 | A `fetch` line fails exactly when it has no space, or when its name is not `multigraph` and does not hold exactly one dot. It is skipped exactly when its name is `multigraph`. A sample is the line's rendering. |
| MuninParse.FetchSampleRoundTrip | duct/sources/munin.py:117-119 | A rendered `metric.key value` line parses back to a sample of its three parts. |
| MuninParse.AggregationOf | duct/sources/munin.py:132-142 | `COUNTER` gives a 32-bit wrapping counter and `DERIVE` a plain counter. Every other type, including the default `GAUGE`, gives no aggregation. Each case holds in both directions. |
| MuninParse.EntryEvents | duct/sources/munin.py:118-142 | A parsed line yields at most one event, and its state is `ok`. |
| MuninParse.EventsAreOk | duct/sources/munin.py:116-142 | A block's events number at most its lines, and all are `ok`. |
| MuninParse.EventsAppend | duct/sources/munin.py:116-142 | The events of two runs of parsed lines are the events of each, in order. |
| MuninParse.FetchEventsShape | duct/sources/munin.py:115-142 | A `fetch` block fails exactly when some line fails to parse. Otherwise it yields at most one event per line, all `ok`. |
| MuninParse.FetchEventsAppend | duct/sources/munin.py:116-142 | For a block split in two, the first failure wins; otherwise the events concatenate in line order. |
| MuninParse.FetchOneLine | duct/sources/munin.py:116-142 | A one-line block yields the line's parse error, or the events of its entry. |
| MuninParse.SkippedFetchLine | duct/sources/munin.py:116-126 | A `multigraph` line, or a sample whose value is not a number, can be removed from a block without changing its outcome. |
| MuninParse.SampleLines | duct/sources/munin.py:115-126 | The positions of the `fetch` lines that are samples with a numeric value: each listed position is such a line, the positions increase, and every such line is listed. |
| MuninParse.FetchEventsFromSamples | duct/sources/munin.py:115-142 | A successful `fetch` block yields exactly one event per numeric sample line, in line order. The event for a line's metric `m` and value `v` has state `ok` and value `v`. Its description is the `info` attribute, else `plug.m`. Its prefix is `category.plug.m`, with the default category `system`. Its aggregation is `Counter32` for a declared `COUNTER`, `Counter` for `DERIVE`, and none otherwise. |
| MuninParse.SampleLineEvent | duct/sources/munin.py:116-142 | A rendered sample line with a numeric value yields exactly that one event. |
| MuninParse.MalformedFetchLineAborts | duct/sources/munin.py:116-119 | After a good prefix, a malformed line fails the whole block with its own error, whatever follows it. |
| MuninNode.Exchange | duct/sources/munin.py:52-58 | A command either fails for lack of a reply or consumes at least one line. Its reply is a block exactly for a block command, and a block reply leaves the buffer empty. |
| MuninNode.GatherSucceedsIff | duct/sources/munin.py:96-146 | The plugin loop succeeds exactly when every plugin's replies parse. |
| MuninNode.GatherAppend | duct/sources/munin.py:96-146 | Events come out plugin by plugin in listing order, and the first failing plugin decides the error. |
| MuninNode.PollPluginsFraming | duct/sources/munin.py:96-142 | On well-framed `config` and `fetch` blocks, the loop over the receiver gives exactly the events of the framed replies, and never reads past the last block. |
| MuninNode.GetPrelude | duct/sources/munin.py:86-93 | After greeting comments, the `cap` and `list` replies take one line each. The plugin loop then runs over the `list` line's words on the lines that follow. |
| MuninNode.GetFollowsFraming | duct/sources/munin.py:86-146 | On a well-formed transcript, a poll yields exactly the events of the framed replies: comments are dropped, each reply goes to the command that asked for it, and plugins go in listing order. |
| MuninNode.TruncatedScriptFails | duct/sources/munin.py:86-90 | A server that sends only comments leaves the poll without a reply and without events. |
| MuninNode.OnePluginConfig | duct/sources/munin.py:96-112 | A `metric.type T` line and a `graph_category C` line give category `C` and the single attribute `(metric, type) = T`. |
| MuninNode.OnePluginEvents | duct/sources/munin.py:96-142 | That plugin with one numeric sample yields one `ok` event. Its description is `plug.metric`, its prefix `C.plug.metric`, and its aggregation is chosen by `T`. |
| MuninNode.SinglePluginGet | duct/sources/munin.py:86-146 | A poll of a server listing one plugin yields that plugin's events. |
| MuninNode.OnePluginPoll | duct/sources/munin.py:86-146 | The whole poll of such a server yields exactly that one event. |
| MuninNode.TwoDotConfigNameFails | duct/sources/munin.py:101-103 | A `config` name with two dots, such as `cpu.user.type`, raises and fails the poll. |
| OpenTsdb.Truncate | duct/outputs/opentsdb.py:51 | `int()` of a number rounds toward zero. |
| OpenTsdb.QueueDepth | duct/outputs/opentsdb.py:48-53 | There is no depth exactly when `maxrate <= 0`. For a non-negative interval, the depth is the whole part of `maxrate * interval`. |
| OpenTsdb.DefaultQueueDepth | duct/outputs/opentsdb.py:39-53 | The defaults (rate 100, interval 1.0) give a depth of 100. |
| OpenTsdb.TakeBatch | duct/outputs/opentsdb.py:98-105 | Batch followed by remainder is the queue. A positive depth smaller than the queue gives a batch of that size. With no limit, a zero depth or a short queue, the batch is the whole queue. |
| OpenTsdb.Init | duct/outputs/opentsdb.py:34-53 | A new output has an empty queue and nothing in flight. It has a depth exactly when the rate is positive, and that depth is `queueDepth`'s, `int(maxrate * interval)`. |
| OpenTsdb.Drain | duct/outputs/opentsdb.py:98-105 | On an empty queue nothing happens. Otherwise the batch in flight followed by the remaining queue is the old queue. A positive depth smaller than the queue sends exactly that many events. With no limit, a zero depth or a queue no longer than the depth, the whole queue is sent and the queue is left empty. With a positive depth the batch is never empty and never larger than the depth. The multiset of held events is unchanged. |
| OpenTsdb.Complete | duct/outputs/opentsdb.py:107-119 | A delivered batch leaves the queue as it is, and the held events shrink by the batch. A failed batch is appended at the tail, and the held events are unchanged. |
| OpenTsdb.TickPreservesEvents | duct/outputs/opentsdb.py:94-119 | Over a whole tick with arbitrary arrivals during the send: on failure the queue is the remainder, then the arrivals, then the batch, with no event lost or duplicated. On success only the batch has left. |
| OpenTsdb.UnreadableErrorRequeues | duct/outputs/opentsdb.py:109-119 | A response with an error object that lacks a `message`, or lacks a `trace` under `debug`, puts the batch back even though the server answered. |
| OpenTsdb.ReadableResponseDelivers | duct/outputs/opentsdb.py:107-116 | A response without an error object, or with a readable one, delivers a batch whose events all transform. |
| OpenTsdb.TransformEvent | duct/outputs/opentsdb.py:68-87 | The transform fails exactly when the event has both tags and attributes. On success, the record has the truncated millisecond timestamp and the value. Its metric name is the service with every space replaced by `_` and every other character kept, position by position. Tags become the comma-joined string when present. Otherwise the tag map holds `host`, `state` and the attributes, and the attributes override. |
| OpenTsdb.TransformIdempotent | duct/outputs/opentsdb.py:73 | Renaming an event to its record's metric name transforms to the same record. |
| OpenTsdb.SendEvents | duct/outputs/opentsdb.py:89-92 | The payload exists exactly when every event transforms, and then it holds one record per event, in batch order. |
| OpenTsdb.PoisonedBatchIsRequeued | duct/outputs/opentsdb.py:68-119 | A batch holding an event with both tags and attributes is put back at the tail on every attempt, whatever the client would answer. |

## Left out

- The Twisted machinery (connections, `LoopingCall`, deferreds, `inlineCallbacks`), the HTTP client behind `put`, and logging. Scripts of lines and the `Drain`/`Complete` split stand in for them.
- The text of outgoing commands (`cap multigraph`, `list`, `config <plugin>`, `fetch <plugin>`) is not modelled. Only which reply answers which command is.
- `disconnect`, `_connect_munin`, `createClient` and `stop`: these are I/O with no logic to state.
- `createEvent`, `duct/objects.py` and `duct/aggregators.py` are not part of this model. The munin event is the tuple of arguments passed to `createEvent`. Events reach the queue through the `Output` base class, which is also not part of this model; `OpenTsdb.Enqueue` is a modelling choice that appends them at the tail in order.
- Float parsing is a parameter rather than a model of Python's `float()` grammar. Float products (`maxrate * interval`, `time * 1000`) are computed exactly on reals, without binary rounding.
- A response whose `error` field is not a dictionary, or whose `trace` is not a string, also raises inside `tick`. Error fields are modelled as a map of strings only.
- `duct/sources/riemann.py`, `duct/sources/__init__.py` and the plugin bootstrap are not part of this model.
- OpenTsdb.Drain: requires that no batch is in flight. The timer does not start a tick before the previous one has finished, so this state is unreachable.
- OpenTsdb.Enqueue: appends without any capacity bound. `maxsize` (documented as the maximum queue backlog, default 250000, 0 disables; opentsdb.py:21, 40) is stored but not read in `opentsdb.py`, and `tick` does not enforce it. The `Output` base class in `duct/objects.py` is not part of this model, so any bound it enforces is not modelled.
- OpenTsdb.Complete: a failed batch is not restored to the head of the queue. The code extends the queue, which appends it at the tail (opentsdb.py:119), behind events that arrived during the send. After a failed tick with a limited batch, the queue is therefore rotated rather than restored.
- MuninNode.TwoDotConfigNameFails: a config line of the form `cpu.user.type COUNTER` does not parse in the code. Unpacking a two-dot name into metric and key raises, and the whole poll fails. Real munin-node field names have one dot (`user.type`).

=== FILE: munin_node.dfy ===
/** One poll of a munin-node (`MuninNode.get`): announce capabilities, list
    the plugins, then `config` and `fetch` each plugin in listing order, all
    over the line receiver, with one request outstanding at a time. The
    server's output is given as a script of lines; every reply is taken from
    the lines the receiver sees after its command is sent. */
module MuninNode {
  import opened Wrappers
  import opened Strings
  import opened MuninReceiver
  import opened MuninParse

  /** Sends one command (single-line or block) and waits for its reply in the
      script; yields the reply, the receiver and the unread lines. */
  function Exchange(r: Receiver, multiline: bool, script: seq<string>)
    : (res: Result<(Reply, Receiver, seq<string>), PollError>)
    ensures res.Failure? ==> res.error == NoReply
    ensures res.Success? ==> |res.value.2| < |script|
    ensures res.Success? ==> (res.value.0.Block? <==> multiline)
    ensures res.Success? ==> res.value.1.buf == (if multiline then [] else r.buf)
  {
    match Await(SendCommand(r, multiline), script)
    case None => Failure(NoReply)
    case Some(x) => Success(x)
  }

  /** The plugin loop: for each plugin a `config` block then a `fetch` block;
      the first failure ends the poll and drops every event gathered so far. */
  function PollPlugins(plugs: seq<string>, r: Receiver, script: seq<string>, number: string -> Option<real>)
    : Result<seq<MuninEvent>, PollError>
    decreases |plugs|
  {
    if |plugs| == 0 then Success([])
    else
      var config :- Exchange(r, true, script);
      var parsed :- ParseConfig(config.0.lines);
      var fetch :- Exchange(config.1, true, config.2);
      var events :- FetchEvents(plugs[0], parsed, fetch.0.lines, number);
      var more :- PollPlugins(plugs[1..], fetch.1, fetch.2, number);
      Success(events + more)
  }

  /** A whole poll over the server's lines, starting on a fresh connection. */
  function Get(script: seq<string>, number: string -> Option<real>): Result<seq<MuninEvent>, PollError>
  {
    var cap :- Exchange(Fresh, false, script);
    var list :- Exchange(cap.1, false, cap.2);
    PollPlugins(Words(list.0.line), list.1, list.2, number)
  }

  // ---------------------------------------------------------------------
  // The same poll on replies that are already framed
  // ---------------------------------------------------------------------

  /** One plugin's name and the lines of its `config` and `fetch` blocks. */
  datatype PluginReplies = PluginReplies(name: string, config: seq<string>, fetch: seq<string>)

  /** The events of one plugin's replies, or the error its parsing raised. */
  function PluginEvents(p: PluginReplies, number: string -> Option<real>): Result<seq<MuninEvent>, PollError>
  {
    var config :- ParseConfig(p.config);
    FetchEvents(p.name, config, p.fetch, number)
  }

  /** Per-plugin outcomes in order: the first failure, else all events concatenated. */
  function Gather(results: seq<Result<seq<MuninEvent>, PollError>>): Result<seq<MuninEvent>, PollError>
  {
    if |results| == 0 then Success([])
    else Combine(results[0], Gather(results[1..]))
  }

  /** Gathering succeeds exactly when every outcome is a success. */
  lemma {:induction false} GatherSucceedsIff(results: seq<Result<seq<MuninEvent>, PollError>>)
    ensures Gather(results).Success? <==> forall i :: 0 <= i < |results| ==> results[i].Success?
  {
    if |results| > 0 {
      GatherSucceedsIff(results[1..]);
      assert forall i :: 1 <= i < |results| ==> results[i] == results[1..][i - 1];
    }
  }

  /** Gathering two runs of outcomes is combining their gathers: events come
      out plugin by plugin, each plugin's in its own order. */
  lemma {:induction false} GatherAppend(a: seq<Result<seq<MuninEvent>, PollError>>, b: seq<Result<seq<MuninEvent>, PollError>>)
    ensures Gather(a + b) == Combine(Gather(a), Gather(b))
  {
    if |a| == 0 {
      assert a + b == b;
      var y := Gather(b);
      if y.Success? {
        assert [] + y.value == y.value;
      }
    } else {
      assert (a + b)[0] == a[0];
      assert (a + b)[1..] == a[1..] + b;
      GatherAppend(a[1..], b);
      var x, y := Gather(a[1..]), Gather(b);
      if a[0].Success? && x.Success? && y.Success? {
        assert a[0].value + (x.value + y.value) == (a[0].value + x.value) + y.value;
      }
    }
  }

  /** Events of framed replies: plugin by plugin, in listing order; any
      malformed line makes the whole result an error. */
  function Collect(plugins: seq<PluginReplies>, number: string -> Option<real>): Result<seq<MuninEvent>, PollError>
  {
    Gather(seq(|plugins|, i requires 0 <= i < |plugins| => PluginEvents(plugins[i], number)))
  }

  lemma CollectCons(plugins: seq<PluginReplies>, number: string -> Option<real>)
    requires |plugins| > 0
    ensures Collect(plugins, number) == Combine(PluginEvents(plugins[0], number), Collect(plugins[1..], number))
  {
    var rs := seq(|plugins|, i requires 0 <= i < |plugins| => PluginEvents(plugins[i], number));
    assert rs[1..] == seq(|plugins| - 1, i requires 0 <= i < |plugins| - 1 => PluginEvents(plugins[1..][i], number));
  }

  function Names(plugins: seq<PluginReplies>): (names: seq<string>)
    ensures |names| == |plugins|
    ensures forall i :: 0 <= i < |plugins| ==> names[i] == plugins[i].name
  {
    if |plugins| == 0 then [] else [plugins[0].name] + Names(plugins[1..])
  }

  /** A block line the server can send: neither a comment nor the terminator. */
  predicate IsBlockLine(line: string)
  {
    !IsComment(line) && line != Terminator
  }

  predicate CleanBlock(lines: seq<string>)
  {
    forall i :: 0 <= i < |lines| ==> IsBlockLine(lines[i])
  }

  predicate AllComments(lines: seq<string>)
  {
    forall i :: 0 <= i < |lines| ==> IsComment(lines[i])
  }

  /** The lines a server sends for the plugins' `config` and `fetch` blocks. */
  function Frame(plugins: seq<PluginReplies>): seq<string>
  {
    if |plugins| == 0 then []
    else plugins[0].config + [Terminator] + plugins[0].fetch + [Terminator] + Frame(plugins[1..])
  }

  /** The whole server output of one poll: greeting comments, the `cap`
      reply, the `list` reply and the framed plugin blocks. */
  function Script(greeting: seq<string>, capLine: string, listLine: string, plugins: seq<PluginReplies>): seq<string>
  {
    greeting + [capLine, listLine] + Frame(plugins)
  }

  lemma {:induction false} AwaitAfterComments(r: Receiver, comments: seq<string>, line: string, rest: seq<string>)
    requires r.request.Waiting? && !r.multiline
    requires AllComments(comments) && !IsComment(line)
    ensures Await(r, comments + [line] + rest) == Some((Line(line), r.(request := Answered(Line(line))), rest))
    decreases |comments|
  {
    var lines := comments + [line] + rest;
    if |comments| == 0 {
      assert lines == [line] + rest;
    } else {
      assert lines[0] == comments[0];
      assert lines[1..] == comments[1..] + [line] + rest;
      AwaitAfterComments(r, comments[1..], line, rest);
    }
  }

  lemma NonCommentClean(lines: seq<string>)
    requires CleanBlock(lines)
    ensures NonComment(lines) == lines
  {
    if |lines| > 0 {
      NonCommentClean(lines[1..]);
      assert lines == [lines[0]] + lines[1..];
    }
  }

  lemma AwaitCleanBlock(r: Receiver, block: seq<string>, rest: seq<string>)
    requires r.request.Waiting? && r.multiline && r.buf == []
    requires CleanBlock(block)
    ensures Await(r, block + [Terminator] + rest)
      == Some((Block(block), Receiver(Answered(Block(block)), true, []), rest))
  {
    var lines := block + [Terminator] + rest;
    assert lines[|block|] == Terminator;
    AwaitBlock(r, lines);
    var k := IndexOf(lines, Terminator);
    assert lines[..k] == block;
    assert lines[k + 1..] == rest;
    NonCommentClean(block);
    assert [] + block == block;
  }

  /** On well-framed output the plugin loop over the receiver gives exactly
      the events of the framed replies; lines after the last block are never read. */
  lemma {:induction false} PollPluginsFraming(plugins: seq<PluginReplies>, r: Receiver, rest: seq<string>,
                                             number: string -> Option<real>)
    requires r.buf == []
    requires forall i :: 0 <= i < |plugins| ==> CleanBlock(plugins[i].config) && CleanBlock(plugins[i].fetch)
    ensures PollPlugins(Names(plugins), r, Frame(plugins) + rest, number) == Collect(plugins, number)
    decreases |plugins|
  {
    if |plugins| > 0 {
      var p := plugins[0];
      var after := p.fetch + [Terminator] + Frame(plugins[1..]) + rest;
      assert Frame(plugins) + rest == p.config + [Terminator] + after;
      AwaitCleanBlock(SendCommand(r, true), p.config, after);
      var c := Receiver(Answered(Block(p.config)), true, []);
      var tail := Frame(plugins[1..]) + rest;
      assert after == p.fetch + [Terminator] + tail;
      AwaitCleanBlock(SendCommand(c, true), p.fetch, tail);
      var f := Receiver(Answered(Block(p.fetch)), true, []);
      assert Exchange(r, true, Frame(plugins) + rest) == Success((Block(p.config), c, after));
      assert Exchange(c, true, after) == Success((Block(p.fetch), f, tail));
      PollPluginsFraming(plugins[1..], f, rest, number);
      assert Names(plugins)[1..] == Names(plugins[1..]);
      assert Names(plugins)[0] == p.name;
      CollectCons(plugins, number);
      var more := PollPlugins(Names(plugins[1..]), f, tail, number);
      assert PollPlugins(Names(plugins), r, Frame(plugins) + rest, number)
        == Combine(PluginEvents(p, number), more);
    }
  }

  /** After the greeting, the `cap` and `list` replies each take one line
      and the plugin loop starts on the lines that follow. */
  lemma GetPrelude(greeting: seq<string>, capLine: string, listLine: string, frame: seq<string>,
                   number: string -> Option<real>)
    requires AllComments(greeting) && !IsComment(capLine) && !IsComment(listLine)
    ensures Get(greeting + [capLine, listLine] + frame, number)
      == PollPlugins(Words(listLine), Receiver(Answered(Line(listLine)), false, []), frame, number)
  {
    var script := greeting + [capLine, listLine] + frame;
    assert script == greeting + [capLine] + ([listLine] + frame);
    AwaitAfterComments(SendCommand(Fresh, false), greeting, capLine, [listLine] + frame);
    var r1 := Receiver(Answered(Line(capLine)), false, []);
    assert Exchange(Fresh, false, script) == Success((Line(capLine), r1, [listLine] + frame));
    assert [listLine] + frame == [] + [listLine] + frame;
    AwaitAfterComments(SendCommand(r1, false), [], listLine, frame);
  }

  /** On a well-formed transcript a poll yields exactly the events of the
      framed replies: comments are dropped, each reply goes to the command
      that asked for it, and plugins are taken in the order they were listed. */
  lemma GetFollowsFraming(greeting: seq<string>, capLine: string, listLine: string, plugins: seq<PluginReplies>,
                          number: string -> Option<real>)
    requires AllComments(greeting) && !IsComment(capLine) && !IsComment(listLine)
    requires Words(listLine) == Names(plugins)
    requires forall i :: 0 <= i < |plugins| ==> CleanBlock(plugins[i].config) && CleanBlock(plugins[i].fetch)
    ensures Get(Script(greeting, capLine, listLine, plugins), number) == Collect(plugins, number)
  {
    var frame := Frame(plugins);
    GetPrelude(greeting, capLine, listLine, frame, number);
    assert frame + [] == frame;
    PollPluginsFraming(plugins, Receiver(Answered(Line(listLine)), false, []), [], number);
  }

  /** A reply that never arrives leaves the poll without events. */
  lemma TruncatedScriptFails(greeting: seq<string>, number: string -> Option<real>)
    requires AllComments(greeting)
    ensures Get(greeting, number) == Failure(NoReply)
  {
    var r := SendCommand(Fresh, false);
    AwaitLine(r, greeting);
    assert NonComment(greeting) == [] by {
      NonCommentNone(greeting);
    }
  }

  lemma NonCommentNone(lines: seq<string>)
    requires AllComments(lines)
    ensures NonComment(lines) == []
  {
    if |lines| > 0 {
      NonCommentNone(lines[1..]);
    }
  }

  // ---------------------------------------------------------------------
  // Worked examples
  // ---------------------------------------------------------------------

  lemma ParseConfigTwoLines(l0: string, l1: string, e0: ConfigEntry, e1: ConfigEntry)
    requires ParseConfigLine(l0) == Success(e0) && ParseConfigLine(l1) == Success(e1)
    ensures ParseConfig([l0, l1]) == Success(Build([e0, e1]))
  {
    var lines, entries := [l0, l1], [e0, e1];
    forall i | 0 <= i < 2
      ensures ParseConfigLine(lines[i]) == Success(entries[i])
    {
      if i == 1 {
        assert lines[i] == l1 && entries[i] == e1;
      }
    }
    ParseAllOf(ParseConfigLine, lines, entries);
  }

  lemma BuildAttributeThenCategory(metric: string, key: string, value: string, category: string)
    ensures Build([Attribute(metric, key, value), Category(category)])
      == PluginConfig(Some(category), map[(metric, key) := value])
  {
    var entries := [Attribute(metric, key, value), Category(category)];
    assert entries[..1] == [entries[0]] && entries[..1][..0] == [];
    assert Build(entries[..1]) == Apply(EmptyConfig, entries[0]);
    assert Build(entries) == Apply(Build(entries[..1]), entries[1]);
  }

  /** The config of a plugin that declares one metric's type and its category. */
  lemma OnePluginConfig(metric: string, mtype: string, category: string)
    requires '.' !in metric && ' ' !in metric
    ensures ParseConfig([metric + "." + "type" + " " + mtype, CategoryName + " " + category])
      == Success(PluginConfig(Some(category), map[(metric, "type") := mtype]))
  {
    ConfigAttributeRoundTrip(metric, "type", mtype);
    ConfigCategoryRoundTrip(category);
    ParseConfigTwoLines(metric + "." + "type" + " " + mtype, CategoryName + " " + category,
                        Attribute(metric, "type", mtype), Category(category));
    BuildAttributeThenCategory(metric, "type", mtype, category);
  }

  lemma CollectSingle(p: PluginReplies, number: string -> Option<real>)
    ensures Collect([p], number) == PluginEvents(p, number)
  {
    CollectCons([p], number);
    assert [p][1..] == [];
    var x := PluginEvents(p, number);
    if x.Success? {
      assert x.value + [] == x.value;
    }
  }

  /** The events of one plugin that declares a metric's type and its category
      and reports one numeric value for it. */
  lemma OnePluginEvents(plug: string, metric: string, key: string, mtype: string, category: string, text: string,
                        number: string -> Option<real>, value: real)
    requires '.' !in metric && ' ' !in metric && '.' !in key && ' ' !in key
    requires number(text) == Some(value)
    ensures PluginEvents(PluginReplies(plug, [metric + "." + "type" + " " + mtype, CategoryName + " " + category],
                                       [metric + "." + key + " " + text]), number)
      == Success([MuninEvent("ok", plug + "." + metric, value, category + "." + plug + "." + metric, AggregationOf(mtype))])
  {
    var parsed := PluginConfig(Some(category), map[(metric, "type") := mtype]);
    OnePluginConfig(metric, mtype, category);
    SampleLineEvent(plug, parsed, metric, key, text, number, value);
    assert ("info" != "type");
  }

  /** A poll of a server that lists a single plugin yields that plugin's events. */
  lemma SinglePluginGet(greeting: seq<string>, capLine: string, p: PluginReplies, number: string -> Option<real>)
    requires AllComments(greeting) && !IsComment(capLine)
    requires IsWord(p.name) && !IsComment(p.name)
    requires CleanBlock(p.config) && CleanBlock(p.fetch)
    ensures Get(Script(greeting, capLine, p.name, [p]), number) == PluginEvents(p, number)
  {
    WordsOfJoin([p.name]);
    assert Names([p]) == [p.name];
    GetFollowsFraming(greeting, capLine, p.name, [p], number);
    CollectSingle(p, number);
  }

  /** End to end on one plugin: a metric declared with type `mtype` in
      category `category` and fetched with a numeric value yields exactly
      one `ok` event named `category.plug.metric`, described as
      `plug.metric`, aggregated according to `mtype`. */
  lemma OnePluginPoll(greeting: seq<string>, capLine: string, plug: string, metric: string, key: string,
                      mtype: string, category: string, text: string, number: string -> Option<real>, value: real)
    requires AllComments(greeting) && !IsComment(capLine)
    requires IsWord(plug) && !IsComment(plug)
    requires '.' !in metric && ' ' !in metric && '.' !in key && ' ' !in key
    requires |metric| > 0 && metric[0] != '#'
    requires number(text) == Some(value)
    ensures var p := PluginReplies(plug, [metric + "." + "type" + " " + mtype, CategoryName + " " + category],
                                   [metric + "." + key + " " + text]);
            Get(Script(greeting, capLine, plug, [p]), number)
            == Success([MuninEvent("ok", plug + "." + metric, value, category + "." + plug + "." + metric, AggregationOf(mtype))])
  {
    var config := [metric + "." + "type" + " " + mtype, CategoryName + " " + category];
    var fetch := [metric + "." + key + " " + text];
    assert config[0][0] == metric[0] && fetch[0][0] == metric[0];
    assert config[1][0] == 'g';
    assert CleanBlock(config) && CleanBlock(fetch);
    SinglePluginGet(greeting, capLine, PluginReplies(plug, config, fetch), number);
    OnePluginEvents(plug, metric, key, mtype, category, text, number, value);
  }

  /** A config name with two dots, such as `cpu.user.type`, cannot be
      unpacked into metric and key: the line raises and the poll fails. */
  lemma TwoDotConfigNameFails(a: string, b: string, c: string, value: string)
    requires ' ' !in a && ' ' !in b && ' ' !in c
    ensures ParseConfigLine(a + "." + b + "." + c + " " + value).Failure?
  {
    var name := a + "." + b + "." + c;
    SplitFirstOf(name, value, ' ');
    assert a + "." + b + "." + c + " " + value == name + [' '] + value;
    assert Count(name, '.') > 1 by {
      JoinSplit(name, '.');
      var n1 := |a|;
      var n2 := |a| + 1 + |b|;
      assert name[n1] == '.' && name[n2] == '.';
      CountTwo(name, n1, n2);
    }
  }
}

=== FILE: munin_parse.dfy ===
/** Parsing of munin-node's `config` and `fetch` replies into events
    (the body of the plugin loop in `MuninNode.get`). */
module MuninParse {
  import opened Wrappers
  import opened Strings

  /** The aggregator an event is tagged with: none (a plain gauge),
      `Counter` (monotonic) or `Counter32` (monotonic, wrapping at 32 bits). */
  datatype Aggregation = NoAggregation | Counter | Counter32

  /** The arguments the munin source passes to `createEvent`. */
  datatype MuninEvent = MuninEvent(
    state: string,
    description: string,
    metric: real,
    prefix: string,
    aggregation: Aggregation)

  /** Why a poll yields nothing: a line whose tuple unpacking raised
      `ValueError`, or a reply that never arrived. */
  datatype PollError = Malformed(line: string) | NoReply

  const RecognizedKeys: set<string> := {"type", "label", "min", "info"}
  const CategoryName: string := "graph_category"
  const DefaultCategory: string := "system"
  const DefaultType: string := "GAUGE"
  const MultigraphName: string := "multigraph"
  const OkState: string := "ok"

  /** The `name` of a `name value` line: everything before the first space. */
  function NameOf(line: string): string
  {
    SplitFirst(line, ' ')[0]
  }

  /** Python's `a, b = name.split('.')`: defined exactly when there is one dot. */
  function SplitPair(name: string): (r: Option<(string, string)>)
    ensures r.Some? <==> Count(name, '.') == 1
    ensures r.Some? ==> name == r.value.0 + "." + r.value.1 && '.' !in r.value.0 && '.' !in r.value.1
  {
    var parts := Split(name, '.');
    if |parts| != 2 then None
    else
      JoinSplit(name, '.');
      assert Join('.', parts) == parts[0] + "." + parts[1];
      Some((parts[0], parts[1]))
  }

  lemma SplitPairOf(m: string, k: string)
    requires '.' !in m && '.' !in k
    ensures SplitPair(m + "." + k) == Some((m, k))
  {
    SplitJoin([m, k], '.');
    assert Join('.', [m, k]) == m + "." + k;
  }

  // ---------------------------------------------------------------------
  // config
  // ---------------------------------------------------------------------

  /** What one `config` line contributes. */
  datatype ConfigEntry =
    | Attribute(metric: string, key: string, value: string)
    | Category(value: string)
    | Ignored

  /** One `config` line: `metric.key value` records a recognized attribute,
      `graph_category value` sets the category, anything else is ignored;
      a line without a space, or a name with more than one dot, raises. */
  function ParseConfigLine(line: string): (r: Result<ConfigEntry, PollError>)
    ensures r.Failure? <==> ' ' !in line || Count(NameOf(line), '.') > 1
    ensures r.Failure? ==> r.error == Malformed(line)
    ensures r.Success? && r.value.Attribute? ==>
      && line == r.value.metric + "." + r.value.key + " " + r.value.value
      && '.' !in r.value.metric && '.' !in r.value.key
      && ' ' !in r.value.metric + "." + r.value.key
      && r.value.key in RecognizedKeys
    ensures r.Success? && r.value.Category? ==> line == CategoryName + " " + r.value.value
  {
    var parts := SplitFirst(line, ' ');
    if |parts| != 2 then Failure(Malformed(line))
    else
      var name, val := parts[0], parts[1];
      CountZero(name, '.');
      if '.' in name then
        match SplitPair(name)
        case None => Failure(Malformed(line))
        case Some((metric, key)) =>
          if key in RecognizedKeys then Success(Attribute(metric, key, val)) else Success(Ignored)
      else if name == CategoryName then Success(Category(val))
      else Success(Ignored)
  }

  /** A rendered attribute line parses back to its parts. */
  lemma ConfigAttributeRoundTrip(metric: string, key: string, value: string)
    requires '.' !in metric && '.' !in key && ' ' !in metric && ' ' !in key
    requires key in RecognizedKeys
    ensures ParseConfigLine(metric + "." + key + " " + value) == Success(Attribute(metric, key, value))
  {
    var name := metric + "." + key;
    assert ' ' !in name;
    SplitFirstOf(name, value, ' ');
    assert name + [' '] + value == metric + "." + key + " " + value;
    SplitPairOf(metric, key);
    assert name[|metric|] == '.';
  }

  /** A rendered `graph_category` line parses back to its value. */
  lemma ConfigCategoryRoundTrip(value: string)
    ensures ParseConfigLine(CategoryName + " " + value) == Success(Category(value))
  {
    SplitFirstOf(CategoryName, value, ' ');
    assert CategoryName + [' '] + value == CategoryName + " " + value;
    assert '.' !in CategoryName;
  }

  /** A plugin's configuration: its category, if declared, and the
      recognized attributes keyed by (metric, key). */
  datatype PluginConfig = PluginConfig(category: Option<string>, attrs: map<(string, string), string>) {

    function Attr(metric: string, key: string): Option<string>
    {
      if (metric, key) in attrs then Some(attrs[(metric, key)]) else None
    }

    /** The category events are filed under. */
    function CategoryOf(): string
    {
      category.GetOr(DefaultCategory)
    }
  }

  const EmptyConfig: PluginConfig := PluginConfig(None, map[])

  function Apply(config: PluginConfig, entry: ConfigEntry): PluginConfig
  {
    match entry
    case Attribute(metric, key, value) => config.(attrs := config.attrs[(metric, key) := value])
    case Category(value) => config.(category := Some(value))
    case Ignored => config
  }

  predicate Sets(entry: ConfigEntry, metric: string, key: string)
  {
    entry.Attribute? && entry.metric == metric && entry.key == key
  }

  /** The configuration after applying entries in order, as the loop fills its dictionary. */
  function Build(entries: seq<ConfigEntry>): PluginConfig
  {
    if |entries| == 0 then EmptyConfig
    else Apply(Build(entries[..|entries| - 1]), entries[|entries| - 1])
  }

  /** An attribute is recorded exactly when some entry sets it, and its value
      is the one given by the last entry that does. */
  lemma {:induction false} AttributeLastWriteWins(entries: seq<ConfigEntry>, metric: string, key: string)
    ensures (metric, key) in Build(entries).attrs <==> exists i :: 0 <= i < |entries| && Sets(entries[i], metric, key)
    ensures (metric, key) in Build(entries).attrs ==>
      exists i :: 0 <= i < |entries| && entries[i] == Attribute(metric, key, Build(entries).attrs[(metric, key)])
        && forall j :: i < j < |entries| ==> !Sets(entries[j], metric, key)
  {
    if |entries| > 0 {
      var n := |entries| - 1;
      var init := entries[..n];
      AttributeLastWriteWins(init, metric, key);
      assert forall i :: 0 <= i < n ==> entries[i] == init[i];
      if Sets(entries[n], metric, key) {
        assert entries[n] == Attribute(metric, key, Build(entries).attrs[(metric, key)]);
      } else {
        assert Build(entries).attrs == Build(init).attrs || !entries[n].Attribute?
          || (entries[n].metric, entries[n].key) != (metric, key);
        if (metric, key) in Build(init).attrs {
          var i :| 0 <= i < n && init[i] == Attribute(metric, key, Build(init).attrs[(metric, key)])
            && forall j :: i < j < n ==> !Sets(init[j], metric, key);
          assert entries[i] == Attribute(metric, key, Build(entries).attrs[(metric, key)]);
        }
      }
    }
  }

  /** The category is declared exactly when some entry declares one, and it
      is the value of the last such entry; otherwise it is `system`. */
  lemma {:induction false} CategoryLastWriteWins(entries: seq<ConfigEntry>)
    ensures Build(entries).category.Some? <==> exists i :: 0 <= i < |entries| && entries[i].Category?
    ensures Build(entries).category.Some? ==>
      exists i :: 0 <= i < |entries| && entries[i] == Category(Build(entries).category.value)
        && forall j :: i < j < |entries| ==> !entries[j].Category?
    ensures Build(entries).category.None? ==> Build(entries).CategoryOf() == DefaultCategory
  {
    if |entries| > 0 {
      var n := |entries| - 1;
      var init := entries[..n];
      CategoryLastWriteWins(init);
      assert forall i :: 0 <= i < n ==> entries[i] == init[i];
      if !entries[n].Category? {
        assert Build(entries).category == Build(init).category;
        if Build(init).category.Some? {
          var i :| 0 <= i < n && init[i] == Category(Build(init).category.value)
            && forall j :: i < j < n ==> !init[j].Category?;
          assert entries[i] == Category(Build(entries).category.value);
        }
      }
    }
  }

  /** Parses every line of a reply in order; the first line that does not
      parse fails the whole reply. */
  function ParseAll<T>(parse: string -> Result<T, PollError>, lines: seq<string>): Result<seq<T>, PollError>
  {
    if |lines| == 0 then Success([])
    else
      var item :- parse(lines[0]);
      var rest :- ParseAll(parse, lines[1..]);
      Success([item] + rest)
  }

  /** A reply parses exactly when every line does, and then line by line. */
  lemma {:induction false} ParseAllPointwise<T>(parse: string -> Result<T, PollError>, lines: seq<string>)
    ensures var r := ParseAll(parse, lines);
      && (r.Success? <==> forall i :: 0 <= i < |lines| ==> parse(lines[i]).Success?)
      && (r.Success? ==> |r.value| == |lines| && forall i :: 0 <= i < |lines| ==> parse(lines[i]) == Success(r.value[i]))
  {
    if |lines| > 0 {
      ParseAllPointwise(parse, lines[1..]);
      assert forall i :: 1 <= i < |lines| ==> lines[i] == lines[1..][i - 1];
    }
  }

  /** Lines that parse one by one to `items` parse together to `items`. */
  lemma {:induction false} ParseAllOf<T>(parse: string -> Result<T, PollError>, lines: seq<string>, items: seq<T>)
    requires |lines| == |items|
    requires forall i :: 0 <= i < |lines| ==> parse(lines[i]) == Success(items[i])
    ensures ParseAll(parse, lines) == Success(items)
  {
    if |lines| > 0 {
      assert parse(lines[0]) == Success(items[0]);
      assert forall i :: 0 <= i < |lines| - 1 ==> lines[1..][i] == lines[i + 1] && items[1..][i] == items[i + 1];
      ParseAllOf(parse, lines[1..], items[1..]);
      assert items == [items[0]] + items[1..];
    }
  }

  lemma ParseAllOne<T>(parse: string -> Result<T, PollError>, line: string)
    ensures var e := parse(line);
      ParseAll(parse, [line]) == if e.Failure? then Failure(e.error) else Success([e.value])
  {
    assert [line][1..] == [] && [line][0] == line;
    var e := parse(line);
    if e.Success? {
      assert [e.value] + [] == [e.value];
    }
  }

  /** A reply split in two: the first failure wins, else the items concatenate. */
  lemma {:induction false} ParseAllAppend<T>(parse: string -> Result<T, PollError>, a: seq<string>, b: seq<string>)
    ensures var x, y := ParseAll(parse, a), ParseAll(parse, b);
      ParseAll(parse, a + b)
      == if x.Failure? then Failure(x.error) else if y.Failure? then Failure(y.error) else Success(x.value + y.value)
  {
    if |a| == 0 {
      assert a + b == b;
      var y := ParseAll(parse, b);
      if y.Success? {
        assert [] + y.value == y.value;
      }
    } else {
      assert (a + b)[0] == a[0];
      assert (a + b)[1..] == a[1..] + b;
      ParseAllAppend(parse, a[1..], b);
      var h, x, y := parse(a[0]), ParseAll(parse, a[1..]), ParseAll(parse, b);
      if h.Success? && x.Success? && y.Success? {
        assert [h.value] + (x.value + y.value) == ([h.value] + x.value) + y.value;
      }
    }
  }

  /** A `config` block: fails on the first malformed line, otherwise the
      configuration holds only recognized attributes of dot-free metrics. */
  function ParseConfig(lines: seq<string>): (r: Result<PluginConfig, PollError>)
    ensures r.Success? <==> forall i :: 0 <= i < |lines| ==> ParseConfigLine(lines[i]).Success?
    ensures r.Success? ==> forall p :: p in r.value.attrs ==> p.1 in RecognizedKeys && '.' !in p.0
  {
    ParseAllPointwise(ParseConfigLine, lines);
    var entries :- ParseAll(ParseConfigLine, lines);
    var config := Build(entries);
    assert forall p :: p in config.attrs ==> p.1 in RecognizedKeys && '.' !in p.0 by {
      forall p | p in config.attrs
        ensures p.1 in RecognizedKeys && '.' !in p.0
      {
        AttributeLastWriteWins(entries, p.0, p.1);
        var i :| 0 <= i < |entries| && Sets(entries[i], p.0, p.1);
        assert ParseConfigLine(lines[i]) == Success(entries[i]);
      }
    }
    Success(config)
  }

  /** An attribute of a parsed `config` block is recorded exactly when some
      line sets it, with the value written by the last such line. */
  lemma ParseConfigAttribute(lines: seq<string>, metric: string, key: string)
    requires ParseConfig(lines).Success?
    ensures var c := ParseConfig(lines).value;
      && ((metric, key) in c.attrs <==> exists i :: 0 <= i < |lines| && Sets(ParseConfigLine(lines[i]).value, metric, key))
      && ((metric, key) in c.attrs ==>
            exists i :: 0 <= i < |lines| && lines[i] == metric + "." + key + " " + c.attrs[(metric, key)]
              && forall j :: i < j < |lines| ==> !Sets(ParseConfigLine(lines[j]).value, metric, key))
  {
    ParseAllPointwise(ParseConfigLine, lines);
    var entries := ParseAll(ParseConfigLine, lines).value;
    var c := ParseConfig(lines).value;
    assert c == Build(entries);
    assert forall i :: 0 <= i < |lines| ==> ParseConfigLine(lines[i]).value == entries[i];
    AttributeLastWriteWins(entries, metric, key);
    if (metric, key) in c.attrs {
      var i :| 0 <= i < |entries| && entries[i] == Attribute(metric, key, c.attrs[(metric, key)])
        && forall j :: i < j < |entries| ==> !Sets(entries[j], metric, key);
      assert ParseConfigLine(lines[i]) == Success(entries[i]);
    }
  }

  /** The category of a parsed `config` block is that of its last
      `graph_category` line, and `system` when there is none. */
  lemma ParseConfigCategory(lines: seq<string>)
    requires ParseConfig(lines).Success?
    ensures var c := ParseConfig(lines).value;
      && (c.category.Some? <==> exists i :: 0 <= i < |lines| && ParseConfigLine(lines[i]).value.Category?)
      && (c.category.Some? ==>
            exists i :: 0 <= i < |lines| && lines[i] == CategoryName + " " + c.category.value
              && forall j :: i < j < |lines| ==> !ParseConfigLine(lines[j]).value.Category?)
      && (c.category.None? ==> c.CategoryOf() == DefaultCategory)
  {
    ParseAllPointwise(ParseConfigLine, lines);
    var entries := ParseAll(ParseConfigLine, lines).value;
    var c := ParseConfig(lines).value;
    assert c == Build(entries);
    assert forall i :: 0 <= i < |lines| ==> ParseConfigLine(lines[i]).value == entries[i];
    CategoryLastWriteWins(entries);
    if c.category.Some? {
      var i :| 0 <= i < |entries| && entries[i] == Category(c.category.value)
        && forall j :: i < j < |entries| ==> !entries[j].Category?;
      assert ParseConfigLine(lines[i]) == Success(entries[i]);
    }
  }

  /** What a parsed `config` block holds, in terms of its lines: an attribute
      exactly when some line sets it, with the value written by the last such
      line; the category of the last `graph_category` line, if any, and
      otherwise `system`. */
  lemma ParseConfigOfLines(lines: seq<string>, metric: string, key: string)
    requires ParseConfig(lines).Success?
    ensures var c := ParseConfig(lines).value;
      && ((metric, key) in c.attrs <==> exists i :: 0 <= i < |lines| && Sets(ParseConfigLine(lines[i]).value, metric, key))
      && ((metric, key) in c.attrs ==>
            exists i :: 0 <= i < |lines| && lines[i] == metric + "." + key + " " + c.attrs[(metric, key)]
              && forall j :: i < j < |lines| ==> !Sets(ParseConfigLine(lines[j]).value, metric, key))
      && (c.category.Some? <==> exists i :: 0 <= i < |lines| && ParseConfigLine(lines[i]).value.Category?)
      && (c.category.Some? ==>
            exists i :: 0 <= i < |lines| && lines[i] == CategoryName + " " + c.category.value
              && forall j :: i < j < |lines| ==> !ParseConfigLine(lines[j]).value.Category?)
      && (c.category.None? ==> c.CategoryOf() == DefaultCategory)
  {
    ParseConfigAttribute(lines, metric, key);
    ParseConfigCategory(lines);
  }

  /** The dictionary key `plug.metric.key` the loop uses for an attribute. */
  function FlatKey(plug: string, metric: string, key: string): string
  {
    plug + "." + metric + "." + key
  }

  /** The dictionary key `plug.category` the loop uses for the category. */
  function FlatCategoryKey(plug: string): string
  {
    plug + ".category"
  }

  /** Within one plugin the flat dictionary keys never collide: distinct
      (metric, key) pairs give distinct keys, and none equals the category
      key; so a map keyed by (metric, key) holds the same information. */
  lemma FlatKeysDistinct(plug: string, m1: string, k1: string, m2: string, k2: string)
    requires '.' !in m1 && '.' !in m2
    ensures FlatKey(plug, m1, k1) == FlatKey(plug, m2, k2) ==> m1 == m2 && k1 == k2
    ensures FlatKey(plug, m1, k1) != FlatCategoryKey(plug)
  {
    var p := |plug| + 1;
    assert FlatKey(plug, m1, k1)[p..] == m1 + "." + k1;
    assert FlatKey(plug, m2, k2)[p..] == m2 + "." + k2;
    assert FlatCategoryKey(plug)[p..] == "category";
    assert (m1 + "." + k1)[|m1|] == '.';
    assert '.' !in "category";
    if FlatKey(plug, m1, k1) == FlatKey(plug, m2, k2) {
      SplitFirstOf(m1, k1, '.');
      SplitFirstOf(m2, k2, '.');
      assert m1 + "." + k1 == m1 + ['.'] + k1;
      assert m2 + "." + k2 == m2 + ['.'] + k2;
    }
  }

  // ---------------------------------------------------------------------
  // fetch
  // ---------------------------------------------------------------------

  /** What one `fetch` line contributes. */
  datatype FetchEntry = Skip | Sample(metric: string, key: string, value: string)

  /** One `fetch` line: `multigraph ...` is skipped, `metric.key value` is a
      sample; a line without a space, or any other name without exactly one
      dot, raises. */
  function ParseFetchLine(line: string): (r: Result<FetchEntry, PollError>)
    ensures r.Failure? <==> ' ' !in line || (NameOf(line) != MultigraphName && Count(NameOf(line), '.') != 1)
    ensures r.Failure? ==> r.error == Malformed(line)
    ensures r == Success(Skip) <==> ' ' in line && NameOf(line) == MultigraphName
    ensures r.Success? && r.value.Sample? ==>
      && line == r.value.metric + "." + r.value.key + " " + r.value.value
      && '.' !in r.value.metric && '.' !in r.value.key
  {
    var parts := SplitFirst(line, ' ');
    if |parts| != 2 then Failure(Malformed(line))
    else if parts[0] == MultigraphName then Success(Skip)
    else
      match SplitPair(parts[0])
      case None => Failure(Malformed(line))
      case Some((metric, key)) => Success(Sample(metric, key, parts[1]))
  }

  /** A rendered sample line parses back to its parts. */
  lemma FetchSampleRoundTrip(metric: string, key: string, value: string)
    requires '.' !in metric && '.' !in key && ' ' !in metric && ' ' !in key
    ensures ParseFetchLine(metric + "." + key + " " + value) == Success(Sample(metric, key, value))
  {
    var name := metric + "." + key;
    assert ' ' !in name;
    SplitFirstOf(name, value, ' ');
    assert name + [' '] + value == metric + "." + key + " " + value;
    SplitPairOf(metric, key);
    assert '.' in name by { assert name[|metric|] == '.'; }
    assert name != MultigraphName by { assert '.' !in MultigraphName; }
  }

  /** `COUNTER` aggregates as a wrapping counter, `DERIVE` as a plain
      counter, every other type (and the default `GAUGE`) not at all. */
  function AggregationOf(metricType: string): (a: Aggregation)
    ensures a == Counter32 <==> metricType == "COUNTER"
    ensures a == Counter <==> metricType == "DERIVE"
    ensures a == NoAggregation <==> metricType != "COUNTER" && metricType != "DERIVE"
  {
    if metricType == "COUNTER" then Counter32
    else if metricType == "DERIVE" then Counter
    else NoAggregation
  }

  /** The event for one parsed sample of metric `metric` of plugin `plug`. */
  function MakeEvent(plug: string, config: PluginConfig, metric: string, value: real): MuninEvent
  {
    var base := plug + "." + metric;
    MuninEvent(
      OkState,
      config.Attr(metric, "info").GetOr(base),
      value,
      config.CategoryOf() + "." + base,
      AggregationOf(config.Attr(metric, "type").GetOr(DefaultType)))
  }

  /** The events one parsed `fetch` line yields: none for a skipped line or
      a value that is not a number, else exactly one. */
  function EntryEvents(plug: string, config: PluginConfig, entry: FetchEntry, number: string -> Option<real>): (events: seq<MuninEvent>)
    ensures |events| <= 1
    ensures AllOk(events)
  {
    match entry
    case Skip => []
    case Sample(metric, _, text) =>
      match number(text)
      case None => []
      case Some(value) => [MakeEvent(plug, config, metric, value)]
  }

  predicate AllOk(events: seq<MuninEvent>)
  {
    forall i :: 0 <= i < |events| ==> events[i].state == OkState
  }

  /** The events of parsed `fetch` lines, in line order. */
  function Events(plug: string, config: PluginConfig, entries: seq<FetchEntry>, number: string -> Option<real>): seq<MuninEvent>
  {
    if |entries| == 0 then []
    else EntryEvents(plug, config, entries[0], number) + Events(plug, config, entries[1..], number)
  }

  /** At most one event per parsed line, every one of them `ok`. */
  lemma {:induction false} EventsAreOk(plug: string, config: PluginConfig, entries: seq<FetchEntry>, number: string -> Option<real>)
    ensures |Events(plug, config, entries, number)| <= |entries|
    ensures AllOk(Events(plug, config, entries, number))
  {
    if |entries| > 0 {
      EventsAreOk(plug, config, entries[1..], number);
      var here, rest := EntryEvents(plug, config, entries[0], number), Events(plug, config, entries[1..], number);
      assert forall i :: |here| <= i < |here + rest| ==> (here + rest)[i] == rest[i - |here|];
    }
  }

  lemma {:induction false} EventsAppend(plug: string, config: PluginConfig, a: seq<FetchEntry>, b: seq<FetchEntry>,
                                        number: string -> Option<real>)
    ensures Events(plug, config, a + b, number) == Events(plug, config, a, number) + Events(plug, config, b, number)
  {
    if |a| == 0 {
      assert a + b == b;
    } else {
      assert (a + b)[0] == a[0];
      assert (a + b)[1..] == a[1..] + b;
      EventsAppend(plug, config, a[1..], b, number);
    }
  }

  /** A `fetch` block: fails on the first malformed line, otherwise the
      events of its lines in line order. */
  function FetchEvents(plug: string, config: PluginConfig, lines: seq<string>, number: string -> Option<real>)
    : Result<seq<MuninEvent>, PollError>
  {
    var entries :- ParseAll(ParseFetchLine, lines);
    Success(Events(plug, config, entries, number))
  }

  /** A `fetch` block succeeds exactly when every line parses, and then
      yields at most one event per line, every one of them `ok`. */
  lemma FetchEventsShape(plug: string, config: PluginConfig, lines: seq<string>, number: string -> Option<real>)
    ensures var r := FetchEvents(plug, config, lines, number);
      && (r.Success? <==> forall i :: 0 <= i < |lines| ==> ParseFetchLine(lines[i]).Success?)
      && (r.Success? ==> |r.value| <= |lines| && AllOk(r.value))
  {
    ParseAllPointwise(ParseFetchLine, lines);
    var parsed := ParseAll(ParseFetchLine, lines);
    if parsed.Success? {
      EventsAreOk(plug, config, parsed.value, number);
    }
  }

  /** A line that yields an event: `parse` (always `ParseFetchLine` in the
      model) turns it into a sample whose value is a number. */
  predicate NumericSample(parse: string -> Result<FetchEntry, PollError>, line: string, number: string -> Option<real>)
  {
    var e := parse(line);
    e.Success? && e.value.Sample? && number(e.value.value).Some?
  }

  /** The positions, from `k` on, of the lines that yield an event: exactly
      the numeric samples, in increasing order. */
  function SampleLines(parse: string -> Result<FetchEntry, PollError>, lines: seq<string>, number: string -> Option<real>, k: nat)
    : (ix: seq<nat>)
    requires k <= |lines|
    ensures forall j :: 0 <= j < |ix| ==> k <= ix[j] < |lines| && NumericSample(parse, lines[ix[j]], number)
    ensures forall j, j' :: 0 <= j < j' < |ix| ==> ix[j] < ix[j']
    ensures forall i :: k <= i < |lines| && NumericSample(parse, lines[i], number) ==> i in ix
    decreases |lines| - k
  {
    if k == |lines| then []
    else (if NumericSample(parse, lines[k], number) then [k] else []) + SampleLines(parse, lines, number, k + 1)
  }

  /** The event the loop appends for a sample of `metric` with value `value`:
      state `ok`, the `info` attribute as description (else `plug.metric`),
      prefix `category.plug.metric` with the default category `system`, and
      aggregation `Counter32` for `COUNTER`, `Counter` for `DERIVE`, none otherwise. */
  predicate SampleEvent(plug: string, config: PluginConfig, metric: string, value: real, ev: MuninEvent)
  {
    && ev.state == "ok"
    && ev.metric == value
    && ev.description == (if (metric, "info") in config.attrs then config.attrs[(metric, "info")] else plug + "." + metric)
    && ev.prefix == config.category.GetOr("system") + "." + plug + "." + metric
    && (ev.aggregation == Counter32 <==> config.Attr(metric, "type") == Some("COUNTER"))
    && (ev.aggregation == Counter <==> config.Attr(metric, "type") == Some("DERIVE"))
  }

  /** The events of the parsed lines from `k` on are the events of the
      numeric samples among them, one each, in line order. */
  lemma {:induction false} EventsOfSamples(parse: string -> Result<FetchEntry, PollError>, plug: string, config: PluginConfig,
                                           lines: seq<string>, entries: seq<FetchEntry>, number: string -> Option<real>, k: nat)
    requires |entries| == |lines| && k <= |lines|
    requires forall i :: 0 <= i < |lines| ==> parse(lines[i]) == Success(entries[i])
    ensures var evs, ix := Events(plug, config, entries[k..], number), SampleLines(parse, lines, number, k);
      && |evs| == |ix|
      && forall j :: 0 <= j < |ix| ==> evs[j] == MakeEvent(plug, config, entries[ix[j]].metric, number(entries[ix[j]].value).value)
    decreases |lines| - k
  {
    if k < |lines| {
      EventsOfSamples(parse, plug, config, lines, entries, number, k + 1);
      assert entries[k..][0] == entries[k] && entries[k..][1..] == entries[k + 1..];
      assert parse(lines[k]) == Success(entries[k]);
      var here := EntryEvents(plug, config, entries[k], number);
      var head: seq<nat> := if NumericSample(parse, lines[k], number) then [k] else [];
      var evs, rest := Events(plug, config, entries[k..], number), Events(plug, config, entries[k + 1..], number);
      var ix, tail := SampleLines(parse, lines, number, k), SampleLines(parse, lines, number, k + 1);
      assert evs == here + rest && ix == head + tail;
      var e := entries[k];
      if e.Sample? && number(e.value).Some? {
        assert here == [MakeEvent(plug, config, e.metric, number(e.value).value)] && head == [k];
      } else {
        assert here == [] && head == [];
      }
      forall j | 0 <= j < |ix|
        ensures evs[j] == MakeEvent(plug, config, entries[ix[j]].metric, number(entries[ix[j]].value).value)
      {
        if j >= |head| {
          assert evs[j] == rest[j - |head|] && ix[j] == tail[j - |head|];
        }
      }
    }
  }

  /** A successful `fetch` block yields one event per numeric sample line,
      in line order, each with that line's metric, value and fields; lines
      that are `multigraph` or carry a non-numeric value yield nothing. */
  lemma FetchEventsFromSamples(plug: string, config: PluginConfig, lines: seq<string>, number: string -> Option<real>)
    requires FetchEvents(plug, config, lines, number).Success?
    ensures var evs, ix := FetchEvents(plug, config, lines, number).value, SampleLines(ParseFetchLine, lines, number, 0);
      && |evs| == |ix|
      && forall j :: 0 <= j < |ix| ==>
        SampleEvent(plug, config, ParseFetchLine(lines[ix[j]]).value.metric,
                    number(ParseFetchLine(lines[ix[j]]).value.value).value, evs[j])
  {
    ParseAllPointwise(ParseFetchLine, lines);
    var entries := ParseAll(ParseFetchLine, lines).value;
    EventsOfSamples(ParseFetchLine, plug, config, lines, entries, number, 0);
    assert entries[0..] == entries;
    var evs, ix := FetchEvents(plug, config, lines, number).value, SampleLines(ParseFetchLine, lines, number, 0);
    forall j | 0 <= j < |ix|
      ensures SampleEvent(plug, config, ParseFetchLine(lines[ix[j]]).value.metric,
                          number(ParseFetchLine(lines[ix[j]]).value.value).value, evs[j])
    {
      var e := entries[ix[j]];
      assert ParseFetchLine(lines[ix[j]]) == Success(e);
      MakeEventFields(plug, config, e.metric, number(e.value).value);
    }
  }

  /** The outcome of two consecutive parts of a reply: the first failure,
      else both event lists in order. */
  function Combine(x: Result<seq<MuninEvent>, PollError>, y: Result<seq<MuninEvent>, PollError>): Result<seq<MuninEvent>, PollError>
  {
    if x.Failure? then x else if y.Failure? then y else Success(x.value + y.value)
  }

  lemma CombineUnit(x: Result<seq<MuninEvent>, PollError>)
    ensures Combine(Success([]), x) == x && Combine(x, Success([])) == x
  {
    if x.Success? {
      assert [] + x.value == x.value && x.value + [] == x.value;
    }
  }

  /** A block split in two: the first failure wins, else the events concatenate in order. */
  lemma FetchEventsAppend(plug: string, config: PluginConfig, a: seq<string>, b: seq<string>, number: string -> Option<real>)
    ensures FetchEvents(plug, config, a + b, number)
      == Combine(FetchEvents(plug, config, a, number), FetchEvents(plug, config, b, number))
  {
    ParseAllAppend(ParseFetchLine, a, b);
    var x, y := ParseAll(ParseFetchLine, a), ParseAll(ParseFetchLine, b);
    if x.Success? && y.Success? {
      EventsAppend(plug, config, x.value, y.value, number);
    }
  }

  /** A one-line block: the line's parse error, or its events. */
  lemma FetchOneLine(plug: string, config: PluginConfig, line: string, number: string -> Option<real>)
    ensures var e := ParseFetchLine(line);
      FetchEvents(plug, config, [line], number)
      == if e.Failure? then Failure(e.error) else Success(EntryEvents(plug, config, e.value, number))
  {
    ParseAllOne(ParseFetchLine, line);
    var e := ParseFetchLine(line);
    if e.Success? {
      assert [e.value][1..] == [];
      var here := EntryEvents(plug, config, e.value, number);
      assert Events(plug, config, [e.value], number) == here + [];
      assert here + [] == here;
    }
  }

  /** A `multigraph` line, or a sample whose value is not a number, yields
      nothing and does not disturb the events of the lines around it. */
  lemma SkippedFetchLine(plug: string, config: PluginConfig, before: seq<string>, line: string, after: seq<string>,
                         number: string -> Option<real>)
    requires ParseFetchLine(line).Success?
    requires ParseFetchLine(line).value.Sample? ==> number(ParseFetchLine(line).value.value).None?
    ensures FetchEvents(plug, config, before + [line] + after, number) == FetchEvents(plug, config, before + after, number)
  {
    var mid := [line] + after;
    var rest := FetchEvents(plug, config, after, number);
    FetchOneLine(plug, config, line, number);
    assert FetchEvents(plug, config, [line], number) == Success([]);
    FetchEventsAppend(plug, config, [line], after, number);
    CombineUnit(rest);
    assert FetchEvents(plug, config, mid, number) == rest;
    FetchEventsAppend(plug, config, before, mid, number);
    FetchEventsAppend(plug, config, before, after, number);
    assert before + [line] + after == before + mid;
  }

  /** A rendered sample line with a numeric value yields exactly one event:
      state `ok`, prefix `category.plug.metric`, description the `info`
      attribute or `plug.metric`, aggregation chosen by the declared type. */
  lemma SampleLineEvent(plug: string, config: PluginConfig, metric: string, key: string, text: string,
                        number: string -> Option<real>, value: real)
    requires '.' !in metric && '.' !in key && ' ' !in metric && ' ' !in key
    requires number(text) == Some(value)
    ensures FetchEvents(plug, config, [metric + "." + key + " " + text], number) == Success([MuninEvent(
      "ok",
      if (metric, "info") in config.attrs then config.attrs[(metric, "info")] else plug + "." + metric,
      value,
      config.category.GetOr("system") + "." + plug + "." + metric,
      if config.Attr(metric, "type") == Some("COUNTER") then Counter32
      else if config.Attr(metric, "type") == Some("DERIVE") then Counter
      else NoAggregation)])
  {
    SampleLineMakesEvent(plug, config, metric, key, text, number, value);
    MakeEventFields(plug, config, metric, value);
  }

  lemma SampleLineMakesEvent(plug: string, config: PluginConfig, metric: string, key: string, text: string,
                             number: string -> Option<real>, value: real)
    requires '.' !in metric && '.' !in key && ' ' !in metric && ' ' !in key
    requires number(text) == Some(value)
    ensures FetchEvents(plug, config, [metric + "." + key + " " + text], number) == Success([MakeEvent(plug, config, metric, value)])
  {
    FetchSampleRoundTrip(metric, key, text);
    var line := metric + "." + key + " " + text;
    FetchOneLine(plug, config, line, number);
    assert EntryEvents(plug, config, Sample(metric, key, text), number) == [MakeEvent(plug, config, metric, value)];
  }

  lemma MakeEventFields(plug: string, config: PluginConfig, metric: string, value: real)
    ensures MakeEvent(plug, config, metric, value) == MuninEvent(
      "ok",
      if (metric, "info") in config.attrs then config.attrs[(metric, "info")] else plug + "." + metric,
      value,
      config.category.GetOr("system") + "." + plug + "." + metric,
      if config.Attr(metric, "type") == Some("COUNTER") then Counter32
      else if config.Attr(metric, "type") == Some("DERIVE") then Counter
      else NoAggregation)
  {
    assert DefaultType != "COUNTER" && DefaultType != "DERIVE";
    var t := config.Attr(metric, "type");
    assert t.GetOr(DefaultType) == "COUNTER" <==> t == Some("COUNTER");
    assert t.GetOr(DefaultType) == "DERIVE" <==> t == Some("DERIVE");
  }

  /** A malformed line fails the whole block, whatever surrounds it. */
  lemma MalformedFetchLineAborts(plug: string, config: PluginConfig, before: seq<string>, line: string, after: seq<string>,
                                 number: string -> Option<real>)
    requires FetchEvents(plug, config, before, number).Success?
    requires ParseFetchLine(line).Failure?
    ensures FetchEvents(plug, config, before + [line] + after, number) == Failure(Malformed(line))
  {
    var failed := Failure(Malformed(line));
    FetchOneLine(plug, config, line, number);
    assert FetchEvents(plug, config, [line], number) == failed;
    FetchEventsAppend(plug, config, [line], after, number);
    assert FetchEvents(plug, config, [line] + after, number) == failed;
    FetchEventsAppend(plug, config, before, [line] + after, number);
    assert before + [line] + after == before + ([line] + after);
  }
}

=== FILE: munin_receiver.dfy ===
/** The line framing of the munin-node client (`MuninProtocol`): one request
    outstanding at a time, answered either by a single line or by a block of
    lines closed by a line holding only `.`; lines starting with `#` are
    comments and are dropped before anything else looks at them. */
module MuninReceiver {
  import opened Wrappers
  import opened Strings

  /** What a request is answered with. */
  datatype Reply = Line(line: string) | Block(lines: seq<string>)

  /** The request's deferred: none sent yet, sent and not yet called, or called with its reply. */
  datatype Request = NoRequest | Waiting | Answered(reply: Reply)

  /** Receiver state: the current request, whether it expects a block
      (`clist`), and the block lines collected so far (`buf`). */
  datatype Receiver = Receiver(request: Request, multiline: bool, buf: seq<string>)

  /** A freshly connected protocol instance. */
  const Fresh: Receiver := Receiver(NoRequest, false, [])

  /** The line that closes a block reply. */
  const Terminator: string := "."

  predicate IsComment(line: string)
  {
    |line| > 0 && line[0] == '#'
  }

  /** One received line, with the delimiter already stripped. */
  function LineReceived(r: Receiver, line: string): (r': Receiver)
    ensures r'.multiline == r.multiline
    ensures r.request.Waiting? ==> r'.request.Waiting? || r'.request == Answered(if r.multiline then Block(r.buf) else Line(line))
  {
    if IsComment(line) then r
    else if !r.request.Waiting? then r
    else if r.multiline then
      if line == Terminator then Receiver(Answered(Block(r.buf)), r.multiline, [])
      else r.(buf := r.buf + [line])
    else r.(request := Answered(Line(line)))
  }

  /** Issuing a command replaces the request; the buffer is left as it was. */
  function SendCommand(r: Receiver, multiline: bool): (r': Receiver)
    ensures r'.request.Waiting?
  {
    Receiver(Waiting, multiline, r.buf)
  }

  /** The receiver after a run of lines, in arrival order. */
  function Feed(r: Receiver, lines: seq<string>): Receiver
    decreases |lines|
  {
    if |lines| == 0 then r else Feed(LineReceived(r, lines[0]), lines[1..])
  }

  function NonComment(lines: seq<string>): seq<string>
  {
    if |lines| == 0 then []
    else (if IsComment(lines[0]) then [] else [lines[0]]) + NonComment(lines[1..])
  }

  /** Index of the first line that is not a comment. */
  function FirstReplyLine(lines: seq<string>): (i: nat)
    requires |NonComment(lines)| > 0
    ensures i < |lines| && !IsComment(lines[i])
    ensures forall j :: 0 <= j < i ==> IsComment(lines[j])
    ensures NonComment(lines)[0] == lines[i]
  {
    if IsComment(lines[0]) then 1 + FirstReplyLine(lines[1..]) else 0
  }

  /** Feeds lines to a waiting request until it is answered; yields the
      reply, the receiver at that moment and the lines not yet consumed,
      or `None` when the lines run out first. */
  function Await(r: Receiver, lines: seq<string>): (res: Option<(Reply, Receiver, seq<string>)>)
    requires r.request.Waiting?
    ensures res.Some? ==> |res.value.2| < |lines|
    ensures res.Some? ==> res.value.1.request == Answered(res.value.0)
    ensures res.Some? ==> (res.value.0.Block? <==> r.multiline)
    ensures res.Some? ==> res.value.1.multiline == r.multiline
    ensures res.Some? ==> res.value.1.buf == (if r.multiline then [] else r.buf)
    decreases |lines|
  {
    if |lines| == 0 then None
    else
      var r' := LineReceived(r, lines[0]);
      if r'.request.Answered? then Some((r'.request.reply, r', lines[1..]))
      else Await(r', lines[1..])
  }

  // ---------------------------------------------------------------------
  // Properties of the framing
  // ---------------------------------------------------------------------

  /** A comment line leaves the receiver exactly as it was. */
  lemma CommentIgnored(r: Receiver, line: string)
    requires IsComment(line)
    ensures LineReceived(r, line) == r
  {
  }

  /** Comment lines are invisible: feeding a stream behaves as feeding
      only its non-comment lines. */
  lemma {:induction false} FeedSkipsComments(r: Receiver, lines: seq<string>)
    ensures Feed(r, lines) == Feed(r, NonComment(lines))
    decreases |lines|
  {
    if |lines| > 0 {
      FeedSkipsComments(LineReceived(r, lines[0]), lines[1..]);
      if IsComment(lines[0]) {
        assert LineReceived(r, lines[0]) == r;
        assert NonComment(lines) == NonComment(lines[1..]);
      } else {
        var nc := NonComment(lines);
        assert nc == [lines[0]] + NonComment(lines[1..]);
        assert nc[1..] == NonComment(lines[1..]);
      }
    }
  }

  /** With no request outstanding, or once it has been answered, every line is discarded. */
  lemma {:induction false} FeedDiscardsWhenNotWaiting(r: Receiver, lines: seq<string>)
    requires !r.request.Waiting?
    ensures Feed(r, lines) == r
    decreases |lines|
  {
    if |lines| > 0 {
      FeedDiscardsWhenNotWaiting(r, lines[1..]);
    }
  }

  /** Single-line mode: the first non-comment line answers the request and the rest are consumed later. */
  lemma {:induction false} AwaitLine(r: Receiver, lines: seq<string>)
    requires r.request.Waiting? && !r.multiline
    ensures Await(r, lines).Some? <==> |NonComment(lines)| > 0
    ensures |NonComment(lines)| > 0 ==>
      var i := FirstReplyLine(lines);
      Await(r, lines) == Some((Line(lines[i]), r.(request := Answered(Line(lines[i]))), lines[i + 1..]))
    decreases |lines|
  {
    if |lines| > 0 {
      if IsComment(lines[0]) {
        AwaitLine(r, lines[1..]);
        assert NonComment(lines) == NonComment(lines[1..]);
        if |NonComment(lines)| > 0 {
          var i := FirstReplyLine(lines[1..]);
          assert lines[1..][i + 1..] == lines[i + 2..];
        }
      }
    }
  }

  /** Block mode: the request is answered at the first `.` line with the
      buffered lines followed by the non-comment lines before it, in arrival
      order; the `.` is not part of the reply and the buffer is emptied. */
  lemma {:induction false} AwaitBlock(r: Receiver, lines: seq<string>)
    requires r.request.Waiting? && r.multiline
    ensures Await(r, lines).Some? <==> Terminator in lines
    ensures Terminator in lines ==>
      var k := IndexOf(lines, Terminator);
      var reply := Block(r.buf + NonComment(lines[..k]));
      Await(r, lines) == Some((reply, Receiver(Answered(reply), true, []), lines[k + 1..]))
    decreases |lines|
  {
    if |lines| > 0 {
      if lines[0] == Terminator {
        assert IndexOf(lines, Terminator) == 0;
        assert lines[..0] == [];
        assert r.buf + NonComment([]) == r.buf;
      } else {
        var r' := BlockStep(r, lines);
        var tail := lines[1..];
        AwaitBlock(r', tail);
        assert lines == [lines[0]] + tail;
        if Terminator in tail {
          var k := IndexOf(tail, Terminator);
          assert IndexOf(lines, Terminator) == k + 1;
          assert lines[..k + 1] == lines[..1] + tail[..k];
          NonCommentAppend(lines[..1], tail[..k]);
          var a, b := NonComment(lines[..1]), NonComment(tail[..k]);
          assert r.buf + NonComment(lines[..k + 1]) == (r.buf + a) + b;
          assert tail[k + 1..] == lines[k + 2..];
        }
      }
    }
  }

  /** One block line that is not the terminator: the request keeps waiting
      and the line is buffered unless it is a comment. */
  lemma BlockStep(r: Receiver, lines: seq<string>) returns (r': Receiver)
    requires r.request.Waiting? && r.multiline
    requires |lines| > 0 && lines[0] != Terminator
    ensures r' == LineReceived(r, lines[0])
    ensures r'.request.Waiting? && r'.multiline
    ensures r'.buf == r.buf + NonComment(lines[..1])
    ensures Await(r, lines) == Await(r', lines[1..])
  {
    r' := LineReceived(r, lines[0]);
    assert NonComment(lines[..1]) == (if IsComment(lines[0]) then [] else [lines[0]]);
  }

  lemma {:induction false} NonCommentAppend(a: seq<string>, b: seq<string>)
    ensures NonComment(a + b) == NonComment(a) + NonComment(b)
  {
    if |a| == 0 {
      assert a + b == b;
    } else {
      assert (a + b)[1..] == a[1..] + b;
      NonCommentAppend(a[1..], b);
    }
  }

  /** A block still waiting for its `.` holds every non-comment line so far, in order. */
  lemma {:induction false} FeedBlockUnterminated(r: Receiver, lines: seq<string>)
    requires r.request.Waiting? && r.multiline
    requires Terminator !in lines
    ensures Feed(r, lines) == r.(buf := r.buf + NonComment(lines))
    decreases |lines|
  {
    if |lines| > 0 {
      var r' := LineReceived(r, lines[0]);
      FeedBlockUnterminated(r', lines[1..]);
      assert r'.buf == r.buf + NonComment(lines[..1]);
      assert lines == lines[..1] + lines[1..];
      NonCommentAppend(lines[..1], lines[1..]);
    } else {
      assert r.buf + [] == r.buf;
    }
  }

  /** The state `Await` reports is the state the whole stream leaves behind:
      lines arriving after the answer (and before a new command) change nothing. */
  lemma {:induction false} AwaitIsFeed(r: Receiver, lines: seq<string>)
    requires r.request.Waiting?
    requires Await(r, lines).Some?
    ensures Feed(r, lines) == Await(r, lines).value.1
    decreases |lines|
  {
    var r' := LineReceived(r, lines[0]);
    if r'.request.Answered? {
      FeedDiscardsWhenNotWaiting(r', lines[1..]);
    } else {
      AwaitIsFeed(r', lines[1..]);
    }
  }
}

=== FILE: opentsdb.dfy ===
/** The OpenTSDB output (`duct/outputs/opentsdb.py`): a queue of events,
    drained on every timer tick in batches of at most `queueDepth` when
    `queueDepth` is positive, and of the whole queue when there is no limit
    or `queueDepth` is zero, each batch transformed to OpenTSDB records and sent; a batch whose send
    fails is put back at the tail of the queue. The suspended tick is split
    into `Drain` (take a batch) and `Complete` (learn how the send went),
    with any number of enqueues in between. */
module OpenTsdb {
  import opened Wrappers
  import opened Strings

  /** An event as the output receives it. */
  datatype Event = Event(
    time: real,
    service: string,
    state: string,
    metric: real,
    hostname: string,
    tags: seq<string>,
    attributes: map<string, string>)

  /** Configuration defaults. */
  const DefaultInterval: real := 1.0
  const DefaultMaxRate: int := 100

  /** Python's `int()` of a number: truncation toward zero. */
  function Truncate(x: real): (n: int)
    ensures 0.0 <= x ==> n as real <= x < n as real + 1.0
    ensures x < 0.0 ==> n as real - 1.0 < x <= n as real
  {
    if x >= 0.0 then x.Floor else -((-x).Floor)
  }

  /** `queueDepth`: `int(maxrate * interval)` for a positive rate, else no limit. */
  function QueueDepth(maxrate: int, interval: real): (depth: Option<int>)
    ensures depth.None? <==> maxrate <= 0
    ensures depth.Some? && interval >= 0.0 ==>
      0 <= depth.value && depth.value as real <= maxrate as real * interval < depth.value as real + 1.0
  {
    if maxrate > 0 then
      assert interval >= 0.0 ==> maxrate as real * interval >= 0.0;
      Some(Truncate(maxrate as real * interval))
    else None
  }

  lemma DefaultQueueDepth()
    ensures QueueDepth(DefaultMaxRate, DefaultInterval) == Some(100)
  {
  }

  // ---------------------------------------------------------------------
  // Queue and tick
  // ---------------------------------------------------------------------

  /** Python's normalisation of a slice bound `k` on a list of length `n`. */
  function SliceBound(k: int, n: nat): (i: nat)
    ensures i <= n
  {
    if k < 0 then (if n + k < 0 then 0 else n + k)
    else if k > n then n
    else k
  }

  /** `s[:k]`. */
  function Take<T>(s: seq<T>, k: int): seq<T>
  {
    s[..SliceBound(k, |s|)]
  }

  /** `s[k:]`. */
  function Drop<T>(s: seq<T>, k: int): seq<T>
  {
    s[SliceBound(k, |s|)..]
  }

  /** A limit is in force only when it is present and non-zero (Python truthiness). */
  predicate Limited(depth: Option<int>, n: nat)
  {
    depth.Some? && depth.value != 0 && n > depth.value
  }

  /** The batch one tick takes from a non-empty queue, and what stays queued. */
  function TakeBatch(queue: seq<Event>, depth: Option<int>): (split: (seq<Event>, seq<Event>))
    ensures split.0 + split.1 == queue
    ensures Limited(depth, |queue|) && depth.value > 0 ==> |split.0| == depth.value
    ensures !Limited(depth, |queue|) ==> split.0 == queue && split.1 == []
  {
    if Limited(depth, |queue|) then
      (Take(queue, depth.value), Drop(queue, depth.value))
    else
      (queue, [])
  }

  /** The output's state: its limit, the pending events, and the batch whose
      send is under way, if any. */
  datatype Output = Output(depth: Option<int>, debug: bool, queue: seq<Event>, inflight: Option<seq<Event>>)

  /** A new output: empty queue, nothing in flight. */
  function Init(maxrate: int, interval: real, debug: bool): (o: Output)
    ensures o.queue == [] && o.inflight.None? && o.debug == debug
    ensures o.depth.None? <==> maxrate <= 0
    ensures o.depth == QueueDepth(maxrate, interval)
  {
    Output(QueueDepth(maxrate, interval), debug, [], None)
  }

  /** Every event the output is holding: queued or in flight. */
  function Held(o: Output): multiset<Event>
  {
    multiset(o.queue) + (if o.inflight.Some? then multiset(o.inflight.value) else multiset{})
  }

  /** Events arrive at the tail, in order. Adding to the queue happens in the
      `Output` base class, which is not part of this model; this function is a
      modelling choice that appends without any capacity bound. */
  function Enqueue(o: Output, events: seq<Event>): (o': Output)
    ensures |o'.queue| == |o.queue| + |events|
    ensures o'.queue[..|o.queue|] == o.queue && o'.queue[|o.queue|..] == events
    ensures o'.depth == o.depth && o'.debug == o.debug && o'.inflight == o.inflight
    ensures Held(o') == Held(o) + multiset(events)
  {
    o.(queue := o.queue + events)
  }

  /** First half of a tick: on an empty queue nothing happens; otherwise a
      batch is taken from the head and its send begins. */
  function Drain(o: Output): (o': Output)
    requires o.inflight.None?
    ensures |o.queue| == 0 ==> o' == o
    ensures |o.queue| > 0 ==> o'.inflight.Some? && o'.inflight.value + o'.queue == o.queue
    ensures Limited(o.depth, |o.queue|) && o.depth.value > 0 ==> |o'.inflight.value| == o.depth.value
    ensures |o.queue| > 0 && !Limited(o.depth, |o.queue|) ==> o'.inflight == Some(o.queue) && o'.queue == []
    ensures |o.queue| > 0 && o.depth.Some? && o.depth.value > 0 ==> 0 < |o'.inflight.value| <= o.depth.value
    ensures o'.depth == o.depth && o'.debug == o.debug
    ensures Held(o') == Held(o)
  {
    if |o.queue| == 0 then o
    else
      var split := TakeBatch(o.queue, o.depth);
      assert multiset(o.queue) == multiset(split.0) + multiset(split.1) by {
        assert o.queue == split.0 + split.1;
      }
      o.(queue := split.1, inflight := Some(split.0))
  }

  /** How the HTTP client answered: a response, with the `error` object it
      may carry (its fields by name), or a raised exception such as a
      refused connection. The response's `errors` list is only logged and
      is not modelled. */
  datatype PutResult = Responded(error: Option<map<string, string>>) | Raised

  /** Reading a response raises when it reports an error (a non-empty
      `error` object) that lacks a `message`, or, with `debug` set, a `trace`. */
  predicate ReadRaises(put: PutResult, debug: bool)
  {
    && put.Responded?
    && put.error.Some? && |put.error.value| > 0
    && ("message" !in put.error.value || (debug && "trace" !in put.error.value))
  }

  /** Second half of a tick: a delivered batch is gone; a failed one is
      appended after whatever is queued now. A batch that cannot be
      transformed fails before the client is called. */
  function Complete(o: Output, put: PutResult): (o': Output)
    requires o.inflight.Some?
    ensures o'.inflight.None? && o'.depth == o.depth && o'.debug == o.debug
    ensures Delivered(o.inflight.value, put, o.debug) ==> o'.queue == o.queue
    ensures !Delivered(o.inflight.value, put, o.debug) ==> o'.queue == o.queue + o.inflight.value
    ensures !Delivered(o.inflight.value, put, o.debug) ==> Held(o') == Held(o)
    ensures Delivered(o.inflight.value, put, o.debug) ==> Held(o') + multiset(o.inflight.value) == Held(o)
  {
    var batch := o.inflight.value;
    if Delivered(batch, put, o.debug) then o.(inflight := None)
    else o.(queue := o.queue + batch, inflight := None)
  }

  /** A batch is delivered when every event transforms, the client responds,
      and reading the response raises nothing; any exception in between
      lands in the handler that puts the batch back. */
  predicate Delivered(batch: seq<Event>, put: PutResult, debug: bool)
  {
    SendEvents(batch).Success? && put.Responded? && !ReadRaises(put, debug)
  }

  /** Applies several enqueues in order. */
  function EnqueueAll(o: Output, arrivals: seq<seq<Event>>): (o': Output)
    ensures o'.depth == o.depth && o'.debug == o.debug && o'.inflight == o.inflight
    ensures o'.queue == o.queue + Concat(arrivals)
    decreases |arrivals|
  {
    if |arrivals| == 0 then o
    else
      var o1 := Enqueue(o, arrivals[0]);
      assert o1.queue == o.queue + arrivals[0];
      var o' := EnqueueAll(o1, arrivals[1..]);
      assert Concat(arrivals) == arrivals[0] + Concat(arrivals[1..]);
      assert (o.queue + arrivals[0]) + Concat(arrivals[1..]) == o.queue + (arrivals[0] + Concat(arrivals[1..]));
      o'
  }

  /** A whole tick with arbitrary arrivals while the send is suspended. On
      failure the final queue is the rest, then the arrivals, then the batch:
      no event lost or duplicated. On success only the batch has left. */
  lemma TickPreservesEvents(o: Output, arrivals: seq<seq<Event>>, put: PutResult)
    requires o.inflight.None? && |o.queue| > 0
    ensures var drained := Drain(o);
      var final := Complete(EnqueueAll(drained, arrivals), put);
      var batch := drained.inflight.value;
      && batch + drained.queue == o.queue
      && (!Delivered(batch, put, o.debug) ==>
            && final.queue == drained.queue + Concat(arrivals) + batch
            && multiset(final.queue) == multiset(o.queue) + multiset(Concat(arrivals)))
      && (Delivered(batch, put, o.debug) ==>
            && final.queue == drained.queue + Concat(arrivals)
            && multiset(final.queue) + multiset(batch) == multiset(o.queue) + multiset(Concat(arrivals)))
  {
    var drained := Drain(o);
    var batch := drained.inflight.value;
    var waiting := EnqueueAll(drained, arrivals);
    var rest := drained.queue;
    var more := Concat(arrivals);
    assert multiset(o.queue) == multiset(batch) + multiset(rest) by {
      assert o.queue == batch + rest;
    }
    if !Delivered(batch, put, o.debug) {
      assert multiset(rest + more + batch) == multiset(rest) + multiset(more) + multiset(batch);
    } else {
      assert multiset(rest + more) == multiset(rest) + multiset(more);
    }
  }

  /** A response that reports an error without a message (or, under
      `debug`, without a trace) is treated like a failed connection: the
      batch goes back on the queue even though the server answered. */
  lemma UnreadableErrorRequeues(o: Output, fields: map<string, string>)
    requires o.inflight.Some? && SendEvents(o.inflight.value).Success?
    requires |fields| > 0 && ("message" !in fields || (o.debug && "trace" !in fields))
    ensures Complete(o, Responded(Some(fields))).queue == o.queue + o.inflight.value
  {
  }

  /** A response without an error object, or with a readable one, delivers
      a batch whose events all transform. */
  lemma ReadableResponseDelivers(o: Output, error: Option<map<string, string>>)
    requires o.inflight.Some? && SendEvents(o.inflight.value).Success?
    requires error.Some? && |error.value| > 0 ==> "message" in error.value && (o.debug ==> "trace" in error.value)
    ensures Complete(o, Responded(error)).queue == o.queue
  {
  }

  // ---------------------------------------------------------------------
  // Transformation to OpenTSDB records
  // ---------------------------------------------------------------------

  /** The record's `tags` value: normally a dictionary, but a comma-joined
      string when the event carries tags. */
  datatype Tags = TagMap(entries: map<string, string>) | TagString(joined: string)

  /** One OpenTSDB data point. */
  datatype Record = Record(timestamp: int, metric: string, value: real, tags: Tags)

  /** Writing an attribute into a tag string raises a `TypeError`. */
  datatype TransformError = TagsNotAMap

  /** OpenTSDB metric names: spaces become underscores. */
  function MetricName(service: string): string
  {
    ReplaceChar(service, ' ', '_')
  }

  /** `transformEvent`. */
  function TransformEvent(ev: Event): (r: Result<Record, TransformError>)
    ensures r.Failure? <==> |ev.tags| > 0 && |ev.attributes| > 0
    ensures r.Success? ==> r.value.timestamp == Truncate(ev.time * 1000.0) && r.value.value == ev.metric
    ensures r.Success? ==> ' ' !in r.value.metric && |r.value.metric| == |ev.service|
    ensures r.Success? ==> forall i :: 0 <= i < |ev.service| ==>
      r.value.metric[i] == (if ev.service[i] == ' ' then '_' else ev.service[i])
    ensures r.Success? && |ev.tags| > 0 ==> r.value.tags == TagString(Join(',', ev.tags))
    ensures r.Success? && |ev.tags| == 0 ==>
      && r.value.tags.TagMap?
      && r.value.tags.entries.Keys == {"host", "state"} + ev.attributes.Keys
      && (forall k :: k in ev.attributes ==> r.value.tags.entries[k] == ev.attributes[k])
      && ("host" !in ev.attributes ==> r.value.tags.entries["host"] == ev.hostname)
      && ("state" !in ev.attributes ==> r.value.tags.entries["state"] == ev.state)
  {
    var base := map["host" := ev.hostname, "state" := ev.state];
    var tags := if |ev.tags| > 0 then TagString(Join(',', ev.tags)) else TagMap(base);
    ReplaceIdempotent(ev.service, ' ', '_');
    var record := Record(Truncate(ev.time * 1000.0), MetricName(ev.service), ev.metric, tags);
    if |ev.attributes| > 0 then
      match tags
      case TagString(_) => Failure(TagsNotAMap)
      case TagMap(m) => Success(record.(tags := TagMap(m + ev.attributes)))
    else Success(record)
  }

  /** Normalising the name is idempotent: an event renamed to its record's
      metric name transforms to the same record. */
  lemma TransformIdempotent(ev: Event)
    requires TransformEvent(ev).Success?
    ensures TransformEvent(ev.(service := TransformEvent(ev).value.metric)) == TransformEvent(ev)
  {
    ReplaceIdempotent(ev.service, ' ', '_');
  }

  /** `sendEvents`' payload: one record per event, in batch order; any
      event that cannot be transformed makes the whole call raise. */
  function SendEvents(batch: seq<Event>): (r: Result<seq<Record>, TransformError>)
    ensures r.Success? <==> forall i :: 0 <= i < |batch| ==> TransformEvent(batch[i]).Success?
    ensures r.Success? ==> |r.value| == |batch|
    ensures r.Success? ==> forall i :: 0 <= i < |batch| ==> TransformEvent(batch[i]) == Success(r.value[i])
  {
    if |batch| == 0 then Success([])
    else
      var record :- TransformEvent(batch[0]);
      var rest :- SendEvents(batch[1..]);
      assert forall i :: 1 <= i < |batch| ==> batch[i] == batch[1..][i - 1];
      Success([record] + rest)
  }

  /** An event with both tags and attributes poisons its batch: every
      attempt fails and puts the batch back, whatever the client would say. */
  lemma PoisonedBatchIsRequeued(o: Output, put: PutResult, i: nat)
    requires o.inflight.Some? && i < |o.inflight.value|
    requires |o.inflight.value[i].tags| > 0 && |o.inflight.value[i].attributes| > 0
    ensures Complete(o, put).queue == o.queue + o.inflight.value
  {
  }
}

=== FILE: strings.dfy ===
/** The handful of Python string and list operations the agent relies on,
    written out on `seq<char>` with the edge cases Python gives them. */
module Strings {

  /** Index of the first occurrence of `x` in `s`. */
  function IndexOf<T(==)>(s: seq<T>, x: T): (i: nat)
    requires x in s
    ensures i < |s| && s[i] == x && x !in s[..i]
  {
    if s[0] == x then 0 else 1 + IndexOf(s[1..], x)
  }

  /** Number of occurrences of `c` in `s`. */
  function Count(s: string, c: char): nat
  {
    if |s| == 0 then 0 else (if s[0] == c then 1 else 0) + Count(s[1..], c)
  }

  lemma {:induction false} CountZero(s: string, c: char)
    ensures Count(s, c) == 0 <==> c !in s
  {
    if |s| > 0 {
      CountZero(s[1..], c);
      assert s == [s[0]] + s[1..];
    }
  }

  /** Two distinct positions holding `c` mean at least two occurrences. */
  lemma {:induction false} CountTwo(s: string, i: nat, j: nat)
    requires i < j < |s| && s[i] == s[j]
    ensures Count(s, s[i]) >= 2
  {
    var c := s[i];
    if i > 0 {
      CountTwo(s[1..], i - 1, j - 1);
    } else {
      CountZero(s[1..], c);
      assert s[1..][j - 1] == c;
    }
  }

  // ---------------------------------------------------------------------
  // str.join and str.split with an explicit one-character separator
  // ---------------------------------------------------------------------

  /** `sep.join(parts)`; the join of no parts is the empty string. */
  function Join(sep: char, parts: seq<string>): string
  {
    if |parts| == 0 then ""
    else if |parts| == 1 then parts[0]
    else parts[0] + [sep] + Join(sep, parts[1..])
  }

  /** `s.split(c)`: the pieces between successive occurrences of `c`,
      one more piece than there are separators, empty pieces kept. */
  function Split(s: string, c: char): (parts: seq<string>)
    ensures |parts| == Count(s, c) + 1
    ensures forall i :: 0 <= i < |parts| ==> c !in parts[i]
  {
    if |s| == 0 then [""]
    else
      var rest := Split(s[1..], c);
      if s[0] == c then [""] + rest
      else [[s[0]] + rest[0]] + rest[1..]
  }

  /** Joining the pieces with the separator gives back the string. */
  lemma {:induction false} JoinSplit(s: string, c: char)
    ensures Join(c, Split(s, c)) == s
  {
    if |s| > 0 {
      var rest := Split(s[1..], c);
      JoinSplit(s[1..], c);
      if s[0] == c {
        assert Join(c, [""] + rest) == "" + [c] + Join(c, rest);
      } else if |rest| == 1 {
        assert Join(c, Split(s, c)) == [s[0]] + rest[0];
      } else {
        assert Join(c, rest) == rest[0] + [c] + Join(c, rest[1..]);
        assert Join(c, Split(s, c)) == ([s[0]] + rest[0]) + [c] + Join(c, rest[1..]);
      }
      assert s == [s[0]] + s[1..];
    }
  }

  lemma {:induction false} SplitPrefix(x: string, y: string, c: char)
    requires c !in x
    ensures Split(x + y, c) == [x + Split(y, c)[0]] + Split(y, c)[1..]
  {
    if |x| == 0 {
      var tail := Split(y, c);
      assert x + y == y;
      assert x + tail[0] == tail[0];
      assert tail == [tail[0]] + tail[1..];
    } else {
      var tail := Split(y, c);
      assert (x + y)[0] == x[0] && x[0] != c;
      assert (x + y)[1..] == x[1..] + y;
      SplitPrefix(x[1..], y, c);
      var rest := Split(x[1..] + y, c);
      assert rest[0] == x[1..] + tail[0];
      assert rest[1..] == tail[1..];
      assert Split(x + y, c) == [[x[0]] + rest[0]] + rest[1..];
      assert [x[0]] + (x[1..] + tail[0]) == x + tail[0];
    }
  }

  /** Splitting a join of separator-free pieces gives back the pieces. */
  lemma {:induction false} SplitJoin(parts: seq<string>, c: char)
    requires |parts| >= 1
    requires forall i :: 0 <= i < |parts| ==> c !in parts[i]
    ensures Split(Join(c, parts), c) == parts
  {
    if |parts| == 1 {
      SplitPrefix(parts[0], "", c);
      assert parts[0] + "" == parts[0];
    } else {
      var tail := Join(c, parts[1..]);
      SplitJoin(parts[1..], c);
      assert ([c] + tail)[0] == c;
      assert ([c] + tail)[1..] == tail;
      assert Split([c] + tail, c) == [""] + parts[1..];
      assert parts == [parts[0]] + parts[1..];
      assert Join(c, parts) == parts[0] + ([c] + tail);
      SplitPrefix(parts[0], [c] + tail, c);
      assert parts[0] + "" == parts[0];
    }
  }

  /** `s.split(c, 1)`: cut at the first `c` if there is one, else `[s]`. */
  function SplitFirst(s: string, c: char): (parts: seq<string>)
    ensures |parts| == (if c in s then 2 else 1)
    ensures |parts| == 1 ==> parts[0] == s
    ensures |parts| == 2 ==> s == parts[0] + [c] + parts[1] && c !in parts[0]
  {
    if c in s then
      var i := IndexOf(s, c);
      assert s == s[..i] + [c] + s[i + 1..];
      [s[..i], s[i + 1..]]
    else [s]
  }

  /** A string cut at a first separator is recovered by `SplitFirst`. */
  lemma SplitFirstOf(a: string, b: string, c: char)
    requires c !in a
    ensures SplitFirst(a + [c] + b, c) == [a, b]
  {
    var s := a + [c] + b;
    assert s[|a|] == c;
    var i := IndexOf(s, c);
    assert s[..|a|] == a;
    assert i == |a|;
  }

  // ---------------------------------------------------------------------
  // str.split() with no separator
  // ---------------------------------------------------------------------

  /** Python 2's `str.isspace` on one character: the separators of `str.split()`. */
  predicate IsSpace(c: char)
  {
    c == ' ' || c == '\t' || c == '\n' || c == '\r' || c == '\U{0B}' || c == '\U{0C}'
  }

  predicate NoSpace(s: string)
  {
    forall i :: 0 <= i < |s| ==> !IsSpace(s[i])
  }

  /** A token `str.split()` can produce: non-empty and free of whitespace. */
  predicate IsWord(w: string)
  {
    |w| > 0 && NoSpace(w)
  }

  function SkipSpaces(s: string): (t: string)
    ensures |t| <= |s| && t == s[|s| - |t|..]
    ensures |t| > 0 ==> !IsSpace(t[0])
    ensures forall i :: 0 <= i < |s| - |t| ==> IsSpace(s[i])
  {
    if |s| > 0 && IsSpace(s[0]) then SkipSpaces(s[1..]) else s
  }

  function TakeWord(s: string): (w: string)
    ensures |w| <= |s| && w == s[..|w|]
    ensures NoSpace(w)
    ensures |w| < |s| ==> IsSpace(s[|w|])
  {
    if |s| > 0 && !IsSpace(s[0]) then [s[0]] + TakeWord(s[1..]) else ""
  }

  /** `s.split()`: the maximal runs of non-whitespace characters, in order. */
  function Words(s: string): (ws: seq<string>)
    ensures |s| == 0 ==> ws == []
    ensures forall i :: 0 <= i < |ws| ==> IsWord(ws[i])
    decreases |s|
  {
    var t := SkipSpaces(s);
    if |t| == 0 then []
    else
      var w := TakeWord(t);
      [w] + Words(t[|w|..])
  }

  lemma {:induction false} TakeWordOf(w: string, rest: string)
    requires NoSpace(w)
    requires |rest| == 0 || IsSpace(rest[0])
    ensures TakeWord(w + rest) == w
  {
    if |w| == 0 {
      assert w + rest == rest;
    } else {
      assert (w + rest)[1..] == w[1..] + rest;
      TakeWordOf(w[1..], rest);
      assert w == [w[0]] + w[1..];
    }
  }

  /** Leading whitespace of any kind contributes no word. */
  lemma WordsAfterAnySpace(c: char, x: string)
    requires IsSpace(c)
    ensures Words([c] + x) == Words(x)
  {
    assert ([c] + x)[1..] == x;
  }

  lemma WordsCons(w: string, x: string)
    requires IsWord(w)
    requires |x| == 0 || IsSpace(x[0])
    ensures Words(w + x) == [w] + Words(x)
  {
    var s := w + x;
    assert s[0] == w[0];
    assert SkipSpaces(s) == s;
    TakeWordOf(w, x);
    assert s[|w|..] == x;
  }

  lemma WordsBeforeSpace(w: string, tail: string)
    requires IsWord(w)
    ensures Words(w + [' '] + tail) == [w] + Words(tail)
  {
    assert w + [' '] + tail == w + (" " + tail);
    WordsCons(w, " " + tail);
    WordsAfterAnySpace(' ', tail);
  }

  /** Splitting a space-joined list of words gives back the list. */
  lemma {:induction false} WordsOfJoin(ws: seq<string>)
    requires forall i :: 0 <= i < |ws| ==> IsWord(ws[i])
    ensures Words(Join(' ', ws)) == ws
  {
    if |ws| == 1 {
      WordsCons(ws[0], "");
      assert ws[0] + "" == ws[0];
    } else if |ws| > 1 {
      var tail := Join(' ', ws[1..]);
      WordsOfJoin(ws[1..]);
      WordsBeforeSpace(ws[0], tail);
    }
  }

  /** The characters of `s` that are not whitespace. */
  function Squeeze(s: string): string
  {
    if |s| == 0 then "" else (if IsSpace(s[0]) then "" else [s[0]]) + Squeeze(s[1..])
  }

  /** Concatenation of a list of sequences, in order. */
  function Concat<T>(ws: seq<seq<T>>): seq<T>
  {
    if |ws| == 0 then [] else ws[0] + Concat(ws[1..])
  }

  lemma {:induction false} SqueezeSkipSpaces(s: string)
    ensures Squeeze(SkipSpaces(s)) == Squeeze(s)
  {
    if |s| > 0 && IsSpace(s[0]) {
      SqueezeSkipSpaces(s[1..]);
    }
  }

  lemma {:induction false} SqueezeTakeWord(t: string)
    ensures Squeeze(t) == TakeWord(t) + Squeeze(t[|TakeWord(t)|..])
  {
    if |t| > 0 && !IsSpace(t[0]) {
      SqueezeTakeWord(t[1..]);
      var w := TakeWord(t[1..]);
      assert t[1..][|w|..] == t[|w| + 1..];
    }
  }

  /** No non-whitespace character is lost or invented by `str.split()`. */
  lemma {:induction false} WordsKeepEveryCharacter(s: string)
    ensures Concat(Words(s)) == Squeeze(s)
    decreases |s|
  {
    var t := SkipSpaces(s);
    SqueezeSkipSpaces(s);
    if |t| > 0 {
      var w := TakeWord(t);
      SqueezeTakeWord(t);
      WordsKeepEveryCharacter(t[|w|..]);
      assert Words(s) == [w] + Words(t[|w|..]);
    }
  }

  // ---------------------------------------------------------------------
  // str.replace for one character
  // ---------------------------------------------------------------------

  /** `s.replace(a, b)` for one-character `a` and `b`. */
  function ReplaceChar(s: string, a: char, b: char): (r: string)
    ensures |r| == |s|
    ensures forall i :: 0 <= i < |s| ==> r[i] == (if s[i] == a then b else s[i])
  {
    if |s| == 0 then "" else [if s[0] == a then b else s[0]] + ReplaceChar(s[1..], a, b)
  }

  /** After a replacement no `a` is left, so replacing again changes nothing. */
  lemma ReplaceIdempotent(s: string, a: char, b: char)
    requires a != b
    ensures a !in ReplaceChar(s, a, b)
    ensures ReplaceChar(ReplaceChar(s, a, b), a, b) == ReplaceChar(s, a, b)
  {
  }
}

=== FILE: wrappers.dfy ===
/** Failure-carrying values shared by the whole model. */
module Wrappers {

  /** A value that may be absent, such as a dictionary lookup that misses. */
  datatype Option<+T> = None | Some(value: T) {

    /** The value, or `default` when absent (Python's `dict.get(key, default)`). */
    function GetOr(default: T): T {
      match this
      case Some(v) => v
      case None => default
    }
  }

  /** A computation that either produced a value or raised an error. */
  datatype Result<+R, +E> = Success(value: R) | Failure(error: E) {

    predicate IsFailure() {
      Failure?
    }

    function PropagateFailure<U>(): Result<U, E>
      requires Failure?
    {
      Failure(error)
    }

    function Extract(): R
      requires Success?
    {
      value
    }
  }
}
